=== FILE: README.md ===
# SLAC pairing core of the ESP32-PLC charger controller

This project models, in Dafny, the part of the ESP32-PLC firmware
(`src/main.cpp`) that pairs a charging station (EVSE) with a vehicle (PEV)
over HomePlug Green PHY. It uses the SLAC protocol of ISO 15118-3 and talks
to a Qualcomm QCA700X modem over SPI. It has three layers:

- **SPI burst framing** (`transport.dfy`, module `Transport`).
  `qcaspi_write_burst` wraps a frame in an 8-byte header (preamble
  `AA AA AA AA`, little-endian length, two zero bytes) and a `55 55` footer,
  and programs the transfer-size register. `qcaspi_read_burst` reads up to
  the modem buffer size.
- **Frame codec** (`codec.dfy`, module `Codec`).
  - The six `compose*` builders, each a zeroed buffer followed by field
    writes (`setMacAt`, `setNidAt`, `setNmkAt`, `setRunId`,
    `setACVarField`).
  - The two header readers, `getManagementMessageType` and `getFrameType`.
  - `macArrayToString`, which produces the vehicle identifier (EVCCID) text.
- **Session state machine** (`slac.dfy`, module `Slac`, and `dispatch.dfy`,
  module `Dispatch`).
  - `SlacManager` reacts to one received HomePlug AV message.
  - One pass of the `Timer20ms` task covers the state switch with its entry
    actions and the receive loop. That loop strips the modem's framing,
    routes frames by Ethernet type and walks through several frames in one
    read. The pass ends with the sounding deadline (600 ms) and the modem
    search deadline (1000 ms).

The program state is an immutable `Session` record, and every operation is a
pure function from a session to a new session and a list of `Output`s. An
output is an SPI operation, a frame handed to the IPv6 handler, or the
state-of-charge callback carrying the EVCCID.

The numeric values of the message-type and frame-type constants in `main.h`
are parameters (`Codes`). The model needs only these facts about them:
- the eight message types `SlacManager` tests are distinct (`Codes.Distinct`);
- the modem buffer size is at most the 3164-byte receive buffer (`Codes.Wf`).

The other files hold properties:
- `slac_props.dfy` (module `SlacProperties`) has the transition table of
  `SlacManager`.
- `sounding.dfy` (module `Sounding`) covers attenuation averaging over ten
  sounds.
- `dispatch_props.dfy` (module `DispatchProperties`) covers the `Timer20ms` task pass.
- `scenarios.dfy` (module `Scenarios`) has concrete runs.

Behaviour reproduced as the code has it:
- **Half reset.** `memset(AvgACVar, 0x00, 58)` clears 58 *bytes*, which is
  only 29 of the 58 `uint16_t` accumulators. `Sounding.StaleGroupReported`
  shows a value left over from an earlier session ending up in the
  accumulator and in the bytes of the next CM_ATTEN_CHAR.IND.
- **Repeated averaging.** The average is taken again for every
  CM_ATTEN_PROFILE.IND that arrives while the sound counter stands at ten
  (`Sounding.AveragingRepeats`).
- **One byte short.** CM_ATTEN_CHAR.IND is composed in 130 bytes but sent as
  129. The lost byte is padding (`DispatchProperties.AttenCharIndTruncation`).
- **Replies, not modems.** `ModemsFound` counts GET_SW.CNF replies, not
  distinct modems (`SlacProperties.RepliesNotModemsAreCounted`).
- **SET_KEY.CNF in any state.** CM_SET_KEY.CNF and CM_SLAC_PARAM.REQ are
  acted on in every state.
- **Invalid data loops forever.** On a burst without the preamble,
  `while (reg16)` never ends: `reg16` is not cleared, so every further
  iteration resets the modem again (`Dispatch.RejectRepeats`,
  `DispatchProperties.SpinsForever`).
- **Negative copy length.** An accepted header with fewer than 14 bytes
  available makes `memcpy(rxbuffer, rxbuffer+12, reg16-14)` run with a
  negative length. This outcome is kept as `Fault`.
- **Truncation.** `uint8_t` and `uint16_t` arithmetic is written out
  explicitly: the sound and modem counters, the accumulators, the
  `setACVarField` truncation to one byte, and the 16-bit burst length.

Facts about the code that a reader of the protocol might not expect:
- GET_SW.REQ is composed in a 60-byte zeroed buffer (src/main.cpp:265) and
  sent with length 60 (src/main.cpp:540), although only its first 20 bytes
  are set.
- `composeFactoryDefaults` (src/main.cpp:364) is never called in
  `src/main.cpp`, so the factory-defaults request is never sent. The model
  keeps its composer (`Codec.ComposeFactoryDefaults`) but no operation sends it.
- A CM_ATTEN_CHAR.RSP that fails verification moves to MODEM_CONFIGURED
  (src/main.cpp:442). The comment on that line says the message should
  rather be ignored and CM_ATTEN_CHAR.IND sent again. The model follows
  the code.
- The message type of CM_SLAC_PARAM.CNF, as `getManagementMessageType`
  reads it, is `0x6065`: bytes 15 and 16 are `0x65` and `0x60`
  (src/main.cpp:291-292).

## Model

| member | source | states |
|---|---|---|
| Bytes.Put | src/main.cpp:201-214 | every byte of the field lands at offset+i and every other byte is unchanged (the `set*At` loops) |
| Bytes.MoveDown | src/main.cpp:558 | `memcpy` to the front: the first n bytes are taken from `from..from+n`, the rest of the buffer is unchanged |
| Transport.WriteBurst | src/main.cpp:142-165 | size register gets len+10 truncated to 16 bits; the burst is preamble, length mod 2^16 little-endian, two zeros, the data, footer `55 55` |
| Transport.UnwrapWire | src/main.cpp:142-165 | framing round trip: for every payload under 64 KiB the burst unwraps to the payload, and every burst that unwraps is the framing of its result |
| Transport.LongPayloadIsLost | src/main.cpp:150-155 | a payload of 64 KiB or more gets a header whose length field disagrees with the data, so the burst cannot be unwrapped |
| Transport.ReadBurst | src/main.cpp:167-184 | bytes are read iff 0 < available <= buffer size; then the size register is set, exactly `available` bytes are copied and the rest of the buffer is kept; otherwise nothing happens and 0 is returned |
| Codec.AcVarBytes | src/main.cpp:212-214 | each of the 58 accumulators is written as its low byte, and is exact when below 256 |
| Codec.MessageType | src/main.cpp:216-219 | the message type is read low byte first: its low byte is byte 15 and its high byte byte 16 |
| Codec.FrameType | src/main.cpp:221-226 | the Ethernet type is read high byte first: its high byte is byte 12 and its low byte byte 13 |
| Codec.ComposeSetKey | src/main.cpp:236-261 | 60-byte CM_SET_KEY.REQ to 00:B0:52:00:00:01 from myMac; key type 1, PID 4, NID at 33..39, EKS 1 at 40, NMK at 41..56, all else zero; message type 0x6008 |
| Codec.ComposeGetSwReq | src/main.cpp:263-281 | 60-byte broadcast GET_SW.REQ from myMac with the Qualcomm OUI, zero after byte 19; message type 0xA000 |
| Codec.ComposeSlacParamCnf | src/main.cpp:283-309 | 60-byte CM_SLAC_PARAM.CNF to the vehicle: sound target all ones, 10 sounds, timeout 6, resp type 1, vehicle MAC at 28, RunId at 36, zero elsewhere; message type 0x6065 |
| Codec.ComposeAttenCharInd | src/main.cpp:311-335 | 130-byte CM_ATTEN_CHAR.IND: vehicle MAC at 21, RunId at 27, sound count at 69, 58 groups at 70, low bytes of the accumulators at 71..128, byte 129 zero; message type 0x606E |
| Codec.ComposeSlacMatchCnf | src/main.cpp:337-362 | 109-byte CM_SLAC_MATCH.CNF: MVF length 0x56, vehicle MAC at 40, RunId at 69, NID at 85..91, NMK at 93..108; message type 0x607D |
| Codec.ComposeFactoryDefaults | src/main.cpp:364-382 | 60-byte vendor factory-defaults request to the local modem, the Qualcomm OUI 00 B0 52 at 17..19, zero after; message type 0xA07C |
| Codec.MacToHex | src/main.cpp:124-129 | the EVCCID text has twelve characters, all lower-case hex digits |
| Codec.ParseHexString | src/main.cpp:124-129 | reading the hex text back gives exactly the bytes it was made from |
| Codec.MacToHexInjective | src/main.cpp:124-129 | two MACs give the same EVCCID text iff they are equal |
| Slac.Send | src/main.cpp:412 | sending a frame writes the size register and a burst that unwraps to exactly that frame |
| Slac.ClearAverages | src/main.cpp:419 | the 58-byte memset zeroes the first 29 accumulators and keeps the last 29 |
| Slac.Accumulate | src/main.cpp:429 | each accumulator gains its sample modulo 2^16, and exactly the sum when that fits |
| Slac.Divide | src/main.cpp:433 | each accumulator is replaced by its truncated quotient (r*n <= a < (r+1)*n) |
| Slac.AttenProfile | src/main.cpp:427-434 | every group gains its sample modulo 2^16, and is divided by ten exactly when ten sounds have been counted |
| Slac.OnSetKeyCnf | src/main.cpp:394-401 | a success flag (byte 19 = 1) moves to MODEM_CONFIGURED and stores the modem MAC from bytes 6..11; otherwise the state and that MAC stay; nothing else changes |
| Slac.OnSlacParamReq | src/main.cpp:403-414 | stores the vehicle MAC and RunId from bytes 6..11 and 21..28, enters SLAC_PARAM_CNF, changes nothing else, and sends one burst that unwraps to a 60-byte CNF addressed to the vehicle and echoing the RunId |
| Slac.OnStartAttenChar | src/main.cpp:416-421 | enters MNBC_SOUND with the sounds timer at `now` and the counter at zero; the first 29 accumulators become zero, the last 29 keep their values; nothing else changes |
| Slac.OnMnbcSound | src/main.cpp:423-425 | the sound counter grows by one modulo 256, exactly by one below 255; nothing else changes |
| Slac.OnAttenProfile | src/main.cpp:427-434 | each accumulator gains byte 27+x modulo 2^16 and is divided by ten when the counter is ten; nothing else changes |
| Slac.OnAttenCharRsp | src/main.cpp:436-442 | enters ATTEN_CHAR_RSP iff the response echoes the vehicle MAC at 21, the RunId at 27 and has a zero result byte 69; any other response enters MODEM_CONFIGURED; nothing else changes |
| Slac.OnSlacMatchReq | src/main.cpp:444-452 | a request echoing the vehicle MAC at 40 and the RunId at 69 with MVF length 0x3E is answered by one burst that unwraps to a 109-byte CNF carrying that MAC and RunId and our NMK at 93..108, and MODEM_GET_SW_REQ follows; any other request changes nothing and sends nothing |
| Slac.OnGetSwCnf | src/main.cpp:454-463 | the reply counter grows by one modulo 256; the sender's MAC is kept as the vehicle modem's only if it differs from our modem's; nothing else changes |
| Slac.SlacManager | src/main.cpp:385-464 | our MAC, the NMK and the buffer never change; ATTEN_CHAR_RSP and MODEM_GET_SW_REQ are only reached through their verification checks; the vehicle's MAC and RunId only change on a SLAC_PARAM.REQ, and then to bytes 6..11 and 21..28; the only frames sent are SLAC_PARAM.CNF and SLAC_MATCH.CNF |
| SlacProperties.UnhandledIsIgnored | src/main.cpp:394-463 | a message outside the table, or whose state guard fails, changes nothing and sends nothing |
| SlacProperties.SetKeyCnfAnyState | src/main.cpp:394-401 | in any state, SET_KEY.CNF with byte 19 = 1 moves to MODEM_CONFIGURED and stores the modem MAC; otherwise nothing changes |
| SlacProperties.SlacParamReqAnyState | src/main.cpp:403-414 | in any state, SLAC_PARAM.REQ stores the vehicle MAC and RunId, answers with a 60-byte SLAC_PARAM.CNF echoing both, and enters SLAC_PARAM_CNF |
| SlacProperties.StartAttenCharStartsSounding | src/main.cpp:416-421 | START_ATTEN_CHAR.IND in SLAC_PARAM_CNF starts the timer at now, zeroes the counter and the first 29 accumulators, keeps the others, and enters MNBC_SOUND |
| SlacProperties.SoundingMessages | src/main.cpp:423-434 | in MNBC_SOUND a sound increments the counter modulo 256 and a profile folds bytes 27..84 into the accumulators; nothing else changes |
| SlacProperties.AttenCharRspGate | src/main.cpp:436-442 | ATTEN_CHAR.RSP reaches ATTEN_CHAR_RSP iff MAC, RunId and result byte match, and otherwise falls back to MODEM_CONFIGURED |
| SlacProperties.SlacMatchGate | src/main.cpp:444-452 | SLAC_MATCH.REQ reaches MODEM_GET_SW_REQ iff MAC, RunId and MVF length match, and sends SLAC_MATCH.CNF with NID and NMK; otherwise nothing happens |
| SlacProperties.GetSwCnfCounts | src/main.cpp:454-463 | GET_SW.CNF in MODEM_WAIT_SW counts the reply and stores a foreign modem MAC |
| SlacProperties.RepliesNotModemsAreCounted | src/main.cpp:454-463 | two replies from our own modem count as two modems found although no vehicle modem was seen |
| Sounding.ColumnSumBound | src/main.cpp:429 | the sum of one group over k profiles is at most 255*k |
| Sounding.PartialSums | src/main.cpp:427-434 | before the tenth sound each accumulator holds its start value plus the samples so far, modulo 2^16, and the counter equals the number of rounds |
| Sounding.TenRounds | src/main.cpp:427-434 | after ten rounds each accumulator is the tenth of its start value plus its samples |
| Sounding.MeanOfTenProfiles | src/main.cpp:427-434 | from zero, ten rounds give each group the truncated mean of its samples and the sums never exceed 2550 |
| Sounding.SoundingAfterReset | src/main.cpp:416-434 | after START_ATTEN_CHAR.IND the first 29 groups average correctly whatever came before; the last 29 start from their old value |
| Sounding.StaleGroupReported | src/main.cpp:419 | a stale 1000 in group 57 becomes 100 after ten silent profiles, and the next ATTEN_CHAR.IND carries 100 at byte 128 |
| Sounding.ZeroColumn | src/main.cpp:429 | profiles that are all zero in a group x sum to zero in group x, for any of the 58 groups |
| Sounding.AveragingRepeats | src/main.cpp:431-434 | every profile arriving while the counter is ten averages again: (avg + sample) / 10 |
| Sounding.RoundIsHandled | src/main.cpp:423-434 | one MNBC_SOUND.IND followed by one ATTEN_PROFILE.IND through `SlacManager` is exactly one `Round`, and the state stays MNBC_SOUND |
| Dispatch.Deliver | src/main.cpp:560-563 | HomePlug AV frames are handed to `SlacManager`, IPv6 frames to the IPv6 handler with their length, all other frames are dropped without effect |
| Dispatch.HeaderAccepted | src/main.cpp:553-556 | the framing test: preamble at bytes 4..7 and announced length of at least 60 |
| Dispatch.Unwrapped | src/main.cpp:558 | the frame is moved to byte 0: byte k comes from byte 12+k for the reg16-14 copied bytes, the rest is unchanged |
| Dispatch.DispatchOnce | src/main.cpp:551-577 | one loop iteration rejects iff the preamble or the minimum length fails, and then resets the modem into MODEM_POWERUP; it faults iff the header is accepted with fewer than 14 bytes; otherwise the unwrapped frame is delivered (its outputs are the iteration's outputs) and the loop continues iff at least 74 bytes remain, with the next burst moved to the front |
| Dispatch.RejectRepeats | src/main.cpp:551-577 | a rejecting iteration leaves buffer and count as they were, so the next one rejects again |
| Dispatch.Drain | src/main.cpp:551-577 | the receive loop keeps our MAC and the NMK; when it spins, it is in MODEM_POWERUP and its last action was a modem reset; with nothing available it does nothing |
| Dispatch.SoundsDeadline | src/main.cpp:581-589 | after 600 ms in MNBC_SOUND, ATTEN_CHAR_IND is entered and one burst goes out that unwraps to exactly the first 129 bytes of the composed CM_ATTEN_CHAR.IND: addressed to the vehicle, with type 0x606E, the vehicle MAC at 21, RunId at 27, the sound count at 69, 58 at 70 and the low byte of each accumulator from 71; otherwise nothing |
| Dispatch.SearchDeadline | src/main.cpp:591-624 | after 1000 ms in MODEM_WAIT_SW, two or more replies lead to MODEM_V2G_INIT with exactly one callback whose 12-character text parses back to the vehicle MAC; fewer replies restart the search with no output; otherwise nothing |
| Dispatch.Deadlines | src/main.cpp:581-624 | at most one deadline acts: the sounds check in MNBC_SOUND, the search check otherwise |
| Dispatch.Switch | src/main.cpp:510-575 | the entry actions keep our MAC; only MODEM_CM_SET_KEY_REQ changes the NMK, to the fresh key, and sends SET_KEY.REQ with it |
| Dispatch.Poll | src/main.cpp:548-577 | with nothing readable the session is unchanged and nothing is emitted; otherwise the size-register write and the read come first, and the rest of the pass is the receive loop run over all `available` bytes read, at the pass's clock |
| Dispatch.Step | src/main.cpp:504-631 | one task pass keeps our MAC; the NMK only changes in MODEM_CM_SET_KEY_REQ, and then the first frame sent is the SET_KEY.REQ carrying the new key |
| DispatchProperties.ModemBringUp | src/main.cpp:513-535 | POWERUP advances iff the signature is good, WRITESPACE advances iff the write space is the buffer size, SET_KEY_REQ sends a 60-byte SET_KEY.REQ with NID and the new NMK |
| DispatchProperties.DiscoveryStarts | src/main.cpp:538-544 | GET_SW_REQ broadcasts GET_SW.REQ, clears the counter, starts the search timer and enters MODEM_WAIT_SW |
| DispatchProperties.BurstIsUnwrapped | src/main.cpp:551-577 | a read of the modem's length word plus a burst framed by `qcaspi_write_burst` is accepted, unwraps to the payload with the same frame and message type, is the only frame, and a HomePlug AV payload reaches `SlacManager` |
| DispatchProperties.TwoFramesInOneRead | src/main.cpp:551-571 | two bursts in one read: the first is unwrapped to its payload and delivered, the loop continues with exactly the second burst counted, moved to the front, accepted and unwrapping to its payload |
| DispatchProperties.TwoFramesDrained | src/main.cpp:551-577 | the loop delivers both frames of a two-frame read in order: the outputs are those of the first delivery followed by those of the second, and each delivered buffer starts with its payload |
| DispatchProperties.LastFrameFinishes | src/main.cpp:565-571 | a burst that uses up the count exactly is delivered and ends the loop |
| DispatchProperties.StrictBurstAccepted | src/main.cpp:553-556 | every burst the strict parser accepts passes the framing test with the right length, and changing a reserved or footer byte does not affect the test |
| DispatchProperties.ReadHoldsBoth | src/main.cpp:178 | after reading two bursts back to back, each sits at its own offset in the buffer |
| DispatchProperties.SecondBurstMoved | src/main.cpp:565-570 | with a second burst after the first frame the loop continues with its bytes counted, and it is at byte 0, accepted and unwrapping to its payload |
| DispatchProperties.FramedBurstAtFront | src/main.cpp:554-558 | a buffer starting with a length word and a framed burst passes the framing test and unwraps to the payload |
| DispatchProperties.MalformedBurstResets | src/main.cpp:572-575 | a burst without preamble resets the modem and enters MODEM_POWERUP; every other session field is kept; the loop spins |
| DispatchProperties.PolledFrameReachesSlac | src/main.cpp:547-624 | a pass in a polling state that reads one burst framed by `qcaspi_write_burst` around a HomePlug AV frame emits the read, then exactly what `SlacManager` emits for the unwrapped frame at the pass's clock, then what the deadline checks emit on the resulting session |
| DispatchProperties.NothingToRead | src/main.cpp:172-183 | with zero or too many bytes available only the deadline checks act |
| DispatchProperties.SoundsTimerExpires | src/main.cpp:581-589 | after sounding, the first 129 bytes of the composed ATTEN_CHAR.IND go out whatever the sound count, with MAC, RunId, count and the low accumulator bytes |
| DispatchProperties.AttenCharIndTruncation | src/main.cpp:584-587 | the byte dropped by sending 129 of 130 bytes is a zero pad |
| DispatchProperties.SearchTimerExpires | src/main.cpp:591-624 | at the search deadline, two or more replies report the vehicle and enter MODEM_V2G_INIT; fewer restart the search |
| DispatchProperties.DeadlinesIdleElsewhere | src/main.cpp:581-592 | outside MNBC_SOUND and MODEM_WAIT_SW the deadline checks do nothing |
| DispatchProperties.SpinsForever | src/main.cpp:551-577 | after a rejection, any number of further iterations reject again, each resetting the modem, and leave the same state |
| Scenarios.SlacParamExchange | src/main.cpp:403-414 | SLAC_PARAM.REQ from AA:BB:CC:DD:EE:FF with RunId 01..08 gives a SLAC_PARAM.CNF with the MAC at 28..33, the RunId at 36..43, byte 25 = 0x0A and message type 0x6065 |
| Scenarios.VehicleEvccid | src/main.cpp:124-129 | the EVCCID text for AA:BB:CC:DD:EE:FF is "aabbccddeeff" |

## Left out

- SPI pin handling, `SPI.transfer*`, register reads and `SPI_InterruptHandler`. A register read is an input of the `Timer20ms` task pass; a register write is an `SpiOp`.
- `ModemReset`'s read-modify-write of `SPI_REG_SPI_CONFIG` is the single operation `ResetModem`.
- `randomizeNmk` uses the hardware random source. The new key is an input (`TickInput.nmk`).
- `sendSocCallback`: the floating-point state-of-charge values and the HTTP request are not modelled. The callback is an output carrying only the EVCCID text.
- `IPv6Manager` and `setSeccIp` are not part of this model. An IPv6 frame becomes an output holding the buffer and its length.
- WebSerial logging, Wi-Fi setup, the web server, OTA updates and stored preferences are outside the pairing core.
- The FreeRTOS task loop and `vTaskDelay` are left out. One call of `Dispatch.Step` is one pass of the `while(1)` body.
- `millis()` is one natural number per pass, the same for every call in that pass. The wrap of the 32-bit millisecond counter after about 49 days is not modelled.
- The race between `setup` and the `Timer20ms` task on the shared globals is not modelled.
- The main.h constant values are parameters (`Codes`). The model assumes the modem buffer size is at most 3164 bytes.
- `memcpy` with overlapping source and destination is modelled as a forward copy, as the moves here always go toward the start of the buffer.
- The loop's `(int16_t)reg16` cast is the identity, because `reg16` never exceeds the 3164-byte buffer.
- `Dispatch.Drain`: does not model what happens after the out-of-bounds `memcpy` (`Fault`); the behaviour of the C program there is undefined.
- `Sounding.AveragingRepeats`: states the repeated averaging only for accumulators below 256, where the `uint16_t` sum cannot wrap.
- `Slac.SlacManager`: does not state the full transition table. The `SlacProperties` lemmas state it branch by branch.

=== FILE: bytes.dfy ===
/** Machine words and byte buffers shared by every layer of the SLAC core.

    The firmware works on `uint8_t` and `uint16_t` arrays that are cleared with
    `memset` and then overwritten field by field; here a buffer is an immutable
    sequence and every write produces a new one. */
module Bytes {

  /** An unsigned 8-bit value (`uint8_t`). */
  type Byte = b: int | 0 <= b < 0x100

  /** An unsigned 16-bit value (`uint16_t`). */
  type U16 = w: int | 0 <= w < 0x1_0000

  datatype Option<+T> = None | Some(value: T)

  /** Truncation of an arbitrary integer to `uint8_t`, as a C assignment does. */
  function Low8(x: int): (r: Byte)
    ensures x >= 0 ==> r == x % 0x100
  {
    x % 0x100
  }

  /** Truncation to `uint16_t` (unsigned wrap-around). */
  function Low16(x: int): (r: U16)
    ensures 0 <= x < 0x1_0000 ==> r == x
  {
    x % 0x1_0000
  }

  /** A buffer of `n` zero bytes, the effect of `memset(buf, 0x00, n)`. */
  function Zeros(n: nat): (r: seq<Byte>)
    ensures |r| == n
    ensures forall i | 0 <= i < n :: r[i] == 0
  {
    seq(n, _ => 0)
  }

  /** True iff every byte of `s` is zero. */
  predicate AllZero(s: seq<Byte>)
  {
    forall i | 0 <= i < |s| :: s[i] == 0
  }

  /** Overwrites `buf[off .. off+|field|)` with `field` and keeps every other
      byte: a run of consecutive `txbuffer[k] = ...` assignments. */
  function Put(buf: seq<Byte>, off: nat, field: seq<Byte>): (r: seq<Byte>)
    requires off + |field| <= |buf|
    ensures |r| == |buf|
    ensures forall i | 0 <= i < |r| ::
      r[i] == (if off <= i < off + |field| then field[i - off] else buf[i])
  {
    buf[..off] + field + buf[off + |field|..]
  }

  /** `memcpy(buf, buf + from, n)`: the first `n` bytes receive the `n` bytes
      starting at `from`; the rest of the buffer is left as it was. The copy
      is read entirely before it is written, which is what the firmware's
      forward, overlapping `memcpy` does when `from > 0`. */
  function MoveDown(buf: seq<Byte>, from: nat, n: nat): (r: seq<Byte>)
    requires from + n <= |buf|
    ensures |r| == |buf|
    ensures forall i | 0 <= i < |r| :: r[i] == (if i < n then buf[from + i] else buf[i])
  {
    buf[from..from + n] + buf[n..]
  }
}

=== FILE: codec.dfy ===
/** HomePlug AV management-message codec (src/main.cpp, the `set*At` helpers,
    the header extractors and the six `compose*` builders).

    Every builder starts from a zero-filled buffer of its own length and then
    overwrites fields at fixed offsets; each postcondition below is the
    resulting byte table, field by field, with the untouched ranges zero. */
module Codec {
  import opened Bytes

  type Mac = m: seq<Byte> | |m| == 6 witness [0, 0, 0, 0, 0, 0]
  type RunId = r: seq<Byte> | |r| == 8 witness [0, 0, 0, 0, 0, 0, 0, 0]
  type Nid = n: seq<Byte> | |n| == 7 witness [0, 0, 0, 0, 0, 0, 0]
  type Nmk = k: seq<Byte> | |k| == 16 witness seq(16, _ => 0)

  /** `uint16_t AvgACVar[58]`: one accumulator per carrier group. */
  type AcVar = a: seq<U16> | |a| == 58 witness seq(58, _ => 0)

  const Groups: nat := 58

  /** The network identifier the firmware always uses; its top two bits are zero. */
  const DefaultNid: Nid := [1, 2, 3, 4, 5, 6, 7]

  /** Ethernet type of HomePlug AV, as the composers write it into bytes 12
      and 13 (the literals at src/main.cpp:245-246 and in each composer). The
      receive path instead compares against `FRAME_HOMEPLUG` from main.h,
      which is the parameter `Codes.frameHomePlug`. main.h is not part of this
      model, so the two are kept apart and nothing here assumes they agree. */
  const HomePlugAvType: nat := 0x88E1

  /** Wire lengths of the composed messages. */
  const SetKeyLength: nat := 60
  const GetSwLength: nat := 60
  const SlacParamCnfLength: nat := 60
  const AttenCharIndLength: nat := 130
  const SlacMatchCnfLength: nat := 109
  const FactoryDefaultsLength: nat := 60

  // ---------------------------------------------------------------------
  // Field extractors

  /** `getManagementMessageType`: bytes 15 and 16, low byte first. */
  function MessageType(frame: seq<Byte>): (t: U16)
    requires |frame| >= 17
    ensures t % 0x100 == frame[15] && t / 0x100 == frame[16]
  {
    frame[16] as int * 0x100 + frame[15] as int
  }

  /** `getFrameType`: the Ethernet type in bytes 12 and 13, high byte first. */
  function FrameType(frame: seq<Byte>): (t: U16)
    requires |frame| >= 14
    ensures t / 0x100 == frame[12] && t % 0x100 == frame[13]
  {
    frame[12] as int * 0x100 + frame[13] as int
  }

  function MacAt(frame: seq<Byte>, off: nat): Mac
    requires off + 6 <= |frame|
  {
    frame[off..off + 6]
  }

  function RunIdAt(frame: seq<Byte>, off: nat): RunId
    requires off + 8 <= |frame|
  {
    frame[off..off + 8]
  }

  // ---------------------------------------------------------------------
  // Field writers

  /** `setACVarField`: each `uint16_t` accumulator is stored into one byte,
      keeping only its low 8 bits. */
  function AcVarBytes(avg: AcVar): (r: seq<Byte>)
    ensures |r| == Groups
    ensures forall i | 0 <= i < Groups :: r[i] == avg[i] % 0x100
    ensures forall i | 0 <= i < Groups :: avg[i] < 0x100 ==> r[i] == avg[i]
  {
    seq(Groups, i requires 0 <= i < Groups => Low8(avg[i]))
  }

  // ---------------------------------------------------------------------
  // Builders

  /** `composeSetKey`: CM_SET_KEY.REQ to the local modem (vendor address
      00:B0:52:00:00:01), carrying the NID and the new NMK. */
  function ComposeSetKey(myMac: Mac, nid: Nid, nmk: Nmk): (r: seq<Byte>)
    ensures |r| == SetKeyLength
    ensures r[0..6] == [0x00, 0xB0, 0x52, 0x00, 0x00, 0x01]
    ensures MacAt(r, 6) == myMac
    ensures r[12..19] == [0x88, 0xE1, 0x01, 0x08, 0x60, 0x00, 0x00]
    ensures r[19] == 0x01 && AllZero(r[20..28])
    ensures r[28] == 0x04 && AllZero(r[29..33])
    ensures r[33..40] == nid
    ensures r[40] == 0x01
    ensures r[41..57] == nmk
    ensures AllZero(r[57..])
    ensures FrameType(r) == HomePlugAvType && MessageType(r) == 0x6008
  {
    var b := Zeros(SetKeyLength);
    var b := Put(b, 0, [0x00, 0xB0, 0x52, 0x00, 0x00, 0x01]);
    var b := Put(b, 6, myMac);
    var b := Put(b, 12, [0x88, 0xE1, 0x01, 0x08, 0x60, 0x00, 0x00, 0x01]);
    var b := Put(b, 28, [0x04, 0x00, 0x00, 0x00, 0x00]);
    var b := Put(b, 33, nid);
    var b := Put(b, 40, [0x01]);
    Put(b, 41, nmk)
  }

  /** `composeGetSwReq`: broadcast GET_SW.REQ with the Qualcomm OUI. */
  function ComposeGetSwReq(myMac: Mac): (r: seq<Byte>)
    ensures |r| == GetSwLength
    ensures r[0..6] == [0xFF, 0xFF, 0xFF, 0xFF, 0xFF, 0xFF]
    ensures MacAt(r, 6) == myMac
    ensures r[12..20] == [0x88, 0xE1, 0x00, 0x00, 0xA0, 0x00, 0xB0, 0x52]
    ensures AllZero(r[20..])
    ensures FrameType(r) == HomePlugAvType && MessageType(r) == 0xA000
  {
    var b := Zeros(GetSwLength);
    var b := Put(b, 0, [0xFF, 0xFF, 0xFF, 0xFF, 0xFF, 0xFF]);
    var b := Put(b, 6, myMac);
    Put(b, 12, [0x88, 0xE1, 0x00, 0x00, 0xA0, 0x00, 0xB0, 0x52])
  }

  /** `composeSlacParamCnf`: CM_SLAC_PARAM.CNF to the vehicle, announcing ten
      sounds with a 600 ms timeout and echoing the vehicle's MAC and RunId. */
  function ComposeSlacParamCnf(myMac: Mac, pevMac: Mac, runId: RunId): (r: seq<Byte>)
    ensures |r| == SlacParamCnfLength
    ensures MacAt(r, 0) == pevMac && MacAt(r, 6) == myMac
    ensures r[12..19] == [0x88, 0xE1, 0x01, 0x65, 0x60, 0x00, 0x00]
    ensures r[19..25] == [0xFF, 0xFF, 0xFF, 0xFF, 0xFF, 0xFF]
    ensures r[25] == 0x0A && r[26] == 0x06 && r[27] == 0x01
    ensures MacAt(r, 28) == pevMac
    ensures r[34] == 0 && r[35] == 0
    ensures RunIdAt(r, 36) == runId
    ensures AllZero(r[44..])
    ensures FrameType(r) == HomePlugAvType && MessageType(r) == 0x6065
  {
    var b := Zeros(SlacParamCnfLength);
    var b := Put(b, 0, pevMac);
    var b := Put(b, 6, myMac);
    var b := Put(b, 12, [0x88, 0xE1, 0x01, 0x65, 0x60, 0x00, 0x00]);
    var b := Put(b, 19, [0xFF, 0xFF, 0xFF, 0xFF, 0xFF, 0xFF, 0x0A, 0x06, 0x01]);
    var b := Put(b, 28, pevMac);
    var b := Put(b, 34, [0x00, 0x00]);
    Put(b, 36, runId)
  }

  /** `composeAttenCharInd`: CM_ATTEN_CHAR.IND with the number of sounds
      received, 58 groups, and the low byte of each accumulator. */
  function ComposeAttenCharInd(myMac: Mac, pevMac: Mac, runId: RunId, sounds: Byte, avg: AcVar): (r: seq<Byte>)
    ensures |r| == AttenCharIndLength
    ensures MacAt(r, 0) == pevMac && MacAt(r, 6) == myMac
    ensures r[12..19] == [0x88, 0xE1, 0x01, 0x6E, 0x60, 0x00, 0x00]
    ensures r[19] == 0 && r[20] == 0
    ensures MacAt(r, 21) == pevMac
    ensures RunIdAt(r, 27) == runId
    ensures AllZero(r[35..69])
    ensures r[69] == sounds && r[70] == Groups
    ensures forall i | 0 <= i < Groups :: r[71 + i] == avg[i] % 0x100
    ensures r[129] == 0
    ensures FrameType(r) == HomePlugAvType && MessageType(r) == 0x606E
  {
    var b := Zeros(AttenCharIndLength);
    var b := Put(b, 0, pevMac);
    var b := Put(b, 6, myMac);
    var b := Put(b, 12, [0x88, 0xE1, 0x01, 0x6E, 0x60, 0x00, 0x00, 0x00, 0x00]);
    var b := Put(b, 21, pevMac);
    var b := Put(b, 27, runId);
    var b := Put(b, 35, [0x00]);
    var b := Put(b, 52, [0x00]);
    var b := Put(b, 69, [sounds, 0x3A]);
    Put(b, 71, AcVarBytes(avg))
  }

  /** `composeSlacMatchCnf`: CM_SLAC_MATCH.CNF carrying the vehicle and
      charger MACs, the RunId, and the NID and NMK of the private network. */
  function ComposeSlacMatchCnf(myMac: Mac, pevMac: Mac, runId: RunId, nid: Nid, nmk: Nmk): (r: seq<Byte>)
    ensures |r| == SlacMatchCnfLength
    ensures MacAt(r, 0) == pevMac && MacAt(r, 6) == myMac
    ensures r[12..19] == [0x88, 0xE1, 0x01, 0x7D, 0x60, 0x00, 0x00]
    ensures r[19..23] == [0x00, 0x00, 0x56, 0x00]
    ensures AllZero(r[23..40])
    ensures MacAt(r, 40) == pevMac
    ensures AllZero(r[46..63])
    ensures MacAt(r, 63) == myMac
    ensures RunIdAt(r, 69) == runId
    ensures AllZero(r[77..85])
    ensures r[85..92] == nid
    ensures r[92] == 0
    ensures r[93..109] == nmk
    ensures FrameType(r) == HomePlugAvType && MessageType(r) == 0x607D
  {
    var b := Zeros(SlacMatchCnfLength);
    var b := Put(b, 0, pevMac);
    var b := Put(b, 6, myMac);
    var b := Put(b, 12, [0x88, 0xE1, 0x01, 0x7D, 0x60, 0x00, 0x00, 0x00, 0x00, 0x56, 0x00]);
    var b := Put(b, 40, pevMac);
    var b := Put(b, 63, myMac);
    var b := Put(b, 69, runId);
    var b := Put(b, 85, nid);
    Put(b, 93, nmk)
  }

  /** `composeFactoryDefaults`: the vendor request that reloads the modem's
      factory configuration. */
  function ComposeFactoryDefaults(myMac: Mac): (r: seq<Byte>)
    ensures |r| == FactoryDefaultsLength
    ensures r[0..6] == [0x00, 0xB0, 0x52, 0x00, 0x00, 0x01]
    ensures MacAt(r, 6) == myMac
    ensures r[12..20] == [0x88, 0xE1, 0x00, 0x7C, 0xA0, 0x00, 0xB0, 0x52]
    ensures AllZero(r[20..])
    ensures FrameType(r) == HomePlugAvType && MessageType(r) == 0xA07C
  {
    var b := Zeros(FactoryDefaultsLength);
    var b := Put(b, 0, [0x00, 0xB0, 0x52, 0x00, 0x00, 0x01]);
    var b := Put(b, 6, myMac);
    Put(b, 12, [0x88, 0xE1, 0x00, 0x7C, 0xA0, 0x00, 0xB0, 0x52])
  }

  // ---------------------------------------------------------------------
  // Vehicle identifier text

  const HexDigits: string := "0123456789abcdef"

  /** The lower-case hexadecimal text of a byte string, two digits per byte
      (`sprintf("%02x", ...)` applied to each byte in turn). */
  function HexString(bytes: seq<Byte>): (s: string)
    ensures |s| == 2 * |bytes|
    ensures forall i | 0 <= i < |s| :: s[i] in HexDigits
  {
    if |bytes| == 0 then ""
    else [HexDigits[bytes[0] / 16], HexDigits[bytes[0] % 16]] + HexString(bytes[1..])
  }

  /** `macArrayToString`: twelve lower-case hex digits, no separators. */
  function MacToHex(mac: Mac): (s: string)
    ensures |s| == 12
    ensures forall i | 0 <= i < 12 :: s[i] in HexDigits
  {
    HexString(mac)
  }

  /** Value of one lower-case hex digit. */
  function DigitValue(c: char): Option<nat>
  {
    if '0' <= c <= '9' then Some(c as int - '0' as int)
    else if 'a' <= c <= 'f' then Some(c as int - 'a' as int + 10)
    else None
  }

  /** Reads back a text written by `HexString`. */
  function ParseHex(s: string): (r: Option<seq<Byte>>)
    ensures r.Some? ==> 2 * |r.value| == |s|
  {
    if |s| == 0 then Some([])
    else if |s| == 1 then None
    else
      match (DigitValue(s[0]), DigitValue(s[1]), ParseHex(s[2..]))
      case (Some(hi), Some(lo), Some(rest)) => Some([hi * 16 + lo] + rest)
      case _ => None
  }

  lemma DigitValueOfHexDigit(d: nat)
    requires d < 16
    ensures DigitValue(HexDigits[d]) == Some(d)
  {
  }

  /** The two digits of a byte in front of a parsable text add that byte
      in front. */
  lemma ParseByteDigits(b: Byte, rest: string, tail: seq<Byte>)
    requires ParseHex(rest) == Some(tail)
    ensures ParseHex([HexDigits[b / 16], HexDigits[b % 16]] + rest) == Some([b] + tail)
  {
    DigitValueOfHexDigit(b / 16);
    DigitValueOfHexDigit(b % 16);
    assert b / 16 * 16 + b % 16 == b;
    assert ([HexDigits[b / 16], HexDigits[b % 16]] + rest)[2..] == rest;
  }

  /** The identifier text determines the MAC: parsing it gives the bytes back,
      so two vehicles with different MACs get different identifiers. */
  lemma {:induction false} ParseHexString(bytes: seq<Byte>)
    ensures ParseHex(HexString(bytes)) == Some(bytes)
  {
    if |bytes| > 0 {
      var b := bytes[0];
      ParseHexString(bytes[1..]);
      ParseByteDigits(b, HexString(bytes[1..]), bytes[1..]);
      assert HexString(bytes) == [HexDigits[b / 16], HexDigits[b % 16]] + HexString(bytes[1..]);
      assert [b] + bytes[1..] == bytes;
    }
  }

  lemma MacToHexInjective(a: Mac, b: Mac)
    ensures MacToHex(a) == MacToHex(b) <==> a == b
  {
    ParseHexString(a);
    ParseHexString(b);
  }
}

=== FILE: dispatch.dfy ===
/** One pass of the `Timer20ms` task (src/main.cpp:504-631): the state
    switch with its entry actions, the receive loop that unwraps bursts and
    routes frames by Ethernet type, and the two deadline checks.

    The clock (`millis()`), the registers the `Timer20ms` task reads and the random
    network key are inputs of the step. */
module Dispatch {
  import opened Bytes
  import opened Transport
  import opened Codec
  import opened Slac

  /** Bytes the receive path wraps around a frame: the modem's 4-byte length
      word, the 8-byte burst header and the 2-byte footer. */
  const RxOverhead: nat := 14

  /** Smallest frame length the receive loop accepts, and smallest remainder
      in which it looks for a further frame. */
  const MinFrame: nat := 60
  const MinRemainder: nat := 74

  /** The length announced in the burst header at `rxbuffer[8..10)`. */
  function AnnouncedLength(rx: RxBuffer): nat
  {
    DeclaredLength(rx[4..])
  }

  /** The framing test of the receive loop: the four preamble bytes at
      `rxbuffer[4..8)` and an announced length of at least 60. The reserved
      bytes and the footer are not looked at. */
  predicate HeaderAccepted(rx: RxBuffer)
  {
    rx[4..8] == Preamble && AnnouncedLength(rx) >= MinFrame
  }

  /** `memcpy(rxbuffer, rxbuffer+12, reg16-14)`: drop the length word and
      the burst header so that the frame starts at byte 0. */
  function Unwrapped(rx: RxBuffer, reg16: nat): (r: RxBuffer)
    requires RxOverhead <= reg16 <= RxCapacity
    ensures forall k | 0 <= k < reg16 - RxOverhead :: r[k] == rx[12 + k]
    ensures r[reg16 - RxOverhead..] == rx[reg16 - RxOverhead..]
  {
    MoveDown(rx, 12, reg16 - RxOverhead)
  }

  /** Route one unwrapped frame by its Ethernet type: HomePlug AV to
      `SlacManager`, IPv6 to the IPv6 handler, anything else is dropped. */
  function Deliver(c: Codes, s: Session, len: nat, now: nat): (r: Reaction)
    ensures r.session.myMac == s.myMac && r.session.nmk == s.nmk && r.session.rx == s.rx
    // HomePlug AV frames go to the SLAC state machine ...
    ensures FrameType(s.rx) == c.frameHomePlug ==> r == SlacManager(c, s, now)
    // ... IPv6 frames to the IPv6 handler, with their length ...
    ensures FrameType(s.rx) != c.frameHomePlug && FrameType(s.rx) == c.frameIpv6 ==>
      r == Reaction(s, [ToIpv6(s.rx, len)])
    // ... and everything else is dropped
    ensures FrameType(s.rx) != c.frameHomePlug && FrameType(s.rx) != c.frameIpv6 ==> r == Reaction(s, [])
  {
    var ft := FrameType(s.rx);
    if ft == c.frameHomePlug then SlacManager(c, s, now)
    else if ft == c.frameIpv6 then Reaction(s, [ToIpv6(s.rx, len)])
    else Reaction(s, [])
  }

  /** Result of one iteration of `while (reg16)`. */
  datatype Iteration =
    | Continue(session: Session, out: seq<Output>, remaining: nat)  // another frame is buffered
    | Finish(session: Session, out: seq<Output>)                    // reg16 = 0
    | Reject(session: Session, out: seq<Output>)                    // invalid data; reg16 unchanged
    | Fault(session: Session)                                       // memcpy with a negative length

  /** One iteration of the receive loop with `reg16` bytes still counted as
      available. */
  function DispatchOnce(c: Codes, s: Session, reg16: nat, now: nat): (r: Iteration)
    requires c.Wf() && 0 < reg16 <= c.bufferSize
    // acceptance is exactly the framing test
    ensures r.Reject? <==> !HeaderAccepted(s.rx)
    ensures r.Reject? ==> r.session == s.(state := ModemPowerUp) && r.out == [Spi(ResetModem)]
    ensures r.Fault? <==> HeaderAccepted(s.rx) && reg16 < RxOverhead
    // a further frame is processed iff at least 74 bytes remain after this one
    ensures (r.Continue? || r.Finish?) ==>
      (r.Continue? <==> reg16 - AnnouncedLength(s.rx) - RxOverhead >= MinRemainder)
    ensures r.Continue? ==>
      && r.remaining == reg16 - AnnouncedLength(s.rx) - RxOverhead
      && MinRemainder <= r.remaining < reg16
      // the next burst now starts at the front of the buffer, all but its footer intact
      && r.session.rx[..r.remaining - 2] == s.rx[AnnouncedLength(s.rx) + RxOverhead..reg16 - 2]
    ensures r.Continue? || r.Finish? ==> r.session.myMac == s.myMac && r.session.nmk == s.nmk
    // an accepted frame is unwrapped and delivered; only the buffer differs afterwards
    ensures r.Continue? || r.Finish? ==>
      var d := Deliver(c, s.(rx := Unwrapped(s.rx, reg16)), AnnouncedLength(s.rx), now);
      && r.out == d.out
      && r.session.(rx := d.session.rx) == d.session
      && (r.Finish? ==> r.session == d.session)
  {
    var rx := s.rx;
    var len := rx[8] as int + rx[9] as int * 0x100;
    if !(rx[4] == 0xAA && rx[5] == 0xAA && rx[6] == 0xAA && rx[7] == 0xAA && len >= MinFrame) then
      Reject(s.(state := ModemPowerUp), [Spi(ResetModem)])
    else if reg16 < RxOverhead then
      Fault(s)
    else
      var stripped := s.(rx := Unwrapped(rx, reg16));
      var d := Deliver(c, stripped, len, now);
      if reg16 - len - RxOverhead >= MinRemainder then
        var n := reg16 - len - RxOverhead;
        Continue(d.session.(rx := MoveDown(d.session.rx, 2 + len, n)), d.out, n)
      else
        Finish(d.session, d.out)
  }

  /** An invalid burst is never left: the rejecting iteration changes neither
      the buffer nor `reg16`, so the next iteration rejects it again, and
      again, each time resetting the modem. `while (reg16)` does not end. */
  lemma RejectRepeats(c: Codes, s: Session, reg16: nat, now: nat)
    requires c.Wf() && 0 < reg16 <= c.bufferSize
    requires DispatchOnce(c, s, reg16, now).Reject?
    ensures var t := DispatchOnce(c, s, reg16, now).session;
      t.rx == s.rx && DispatchOnce(c, t, reg16, now) == Reject(t, [Spi(ResetModem)])
  {
  }

  /** How a pass through the receive loop ends. */
  datatype Outcome =
    | Ran(session: Session, out: seq<Output>)     // the loop ended; the `Timer20ms` task goes on
    | Spins(session: Session, out: seq<Output>)   // invalid data: the loop never ends
    | Faults(session: Session, out: seq<Output>)  // out-of-bounds memcpy

  /** `o`, preceded by the outputs `out`. */
  function Prepend(out: seq<Output>, o: Outcome): (r: Outcome)
    ensures r.session == o.session && r.out == out + o.out
    ensures r.Ran? == o.Ran? && r.Spins? == o.Spins?
  {
    match o
    case Ran(t, more) => Ran(t, out + more)
    case Spins(t, more) => Spins(t, out + more)
    case Faults(t, more) => Faults(t, out + more)
  }

  /** `while (reg16) { ... }`, up to its end or to the iteration it repeats
      forever. */
  function Drain(c: Codes, s: Session, reg16: nat, now: nat): (r: Outcome)
    requires c.Wf() && reg16 <= c.bufferSize
    decreases reg16
    ensures r.session.myMac == s.myMac && r.session.nmk == s.nmk
    ensures r.Spins? ==> r.session.state == ModemPowerUp && |r.out| > 0 && r.out[|r.out| - 1] == Spi(ResetModem)
    ensures reg16 == 0 ==> r == Ran(s, [])
  {
    if reg16 == 0 then Ran(s, [])
    else
      match DispatchOnce(c, s, reg16, now)
      case Continue(t, out, n) => Prepend(out, Drain(c, t, n, now))
      case Finish(t, out) => Ran(t, out)
      case Reject(t, out) => Spins(t, out)
      case Fault(t) => Faults(t, [])
  }

  // ---------------------------------------------------------------------
  // Deadlines

  /** Sounding lasts 600 ms, modem discovery 1000 ms. */
  const SoundsTimeout: nat := 600
  const ModemSearchTimeout: nat := 1000

  /** ATTEN_CHAR.IND is composed in 130 bytes but sent as 129. */
  const AttenCharIndSent: nat := 129

  /** The sounds-timer check. When it fires, one burst goes out carrying the
      first 129 bytes of CM_ATTEN_CHAR.IND: the vehicle's MAC and RunId, the
      number of sounds received and the low byte of every accumulator. */
  function SoundsDeadline(s: Session, now: nat): (r: Reaction)
    ensures s.state == MnbcSound && s.soundsTimer + SoundsTimeout < now ==>
      && r.session == s.(state := AttenCharInd)
      && |r.out| == 2 && r.out[0] == Spi(SetBufferSize(AttenCharIndSent + Overhead))
      && r.out[1].Spi? && r.out[1].op.WriteExternal?
      && var sent := UnwrapBurst(r.out[1].op.bytes);
         && sent.Some? && |sent.value| == AttenCharIndSent
         // exactly the first 129 bytes of the composed CM_ATTEN_CHAR.IND
         && sent.value == ComposeAttenCharInd(s.myMac, s.pevMac, s.pevRunId, s.receivedSounds, s.avgAcVar)[..AttenCharIndSent]
         && MacAt(sent.value, 0) == s.pevMac && MacAt(sent.value, 6) == s.myMac
         && MessageType(sent.value) == 0x606E
         && MacAt(sent.value, 21) == s.pevMac && RunIdAt(sent.value, 27) == s.pevRunId
         && sent.value[69] == s.receivedSounds && sent.value[70] == Groups
         && (forall x | 0 <= x < Groups :: sent.value[71 + x] == s.avgAcVar[x] % 0x100)
    ensures !(s.state == MnbcSound && s.soundsTimer + SoundsTimeout < now) ==> r == Reaction(s, [])
  {
    if s.state == MnbcSound && s.soundsTimer + SoundsTimeout < now then
      var frame := ComposeAttenCharInd(s.myMac, s.pevMac, s.pevRunId, s.receivedSounds, s.avgAcVar);
      var sent := frame[..AttenCharIndSent];
      assert MacAt(sent, 0) == MacAt(frame, 0) && MacAt(sent, 6) == MacAt(frame, 6);
      assert MacAt(sent, 21) == MacAt(frame, 21) && RunIdAt(sent, 27) == RunIdAt(frame, 27);
      Reaction(s.(state := AttenCharInd), Send(sent))
    else Reaction(s, [])
  }

  /** The modem-search check. Passing through MODEM_LINK_READY, a search
      that saw two or more replies reports the vehicle once, by a text from
      which its MAC is recovered, and ends in MODEM_V2G_INIT; otherwise the
      search starts again. */
  function SearchDeadline(s: Session, now: nat): (r: Reaction)
    ensures s.state == ModemWaitSw && s.modemSearchTimer + ModemSearchTimeout < now ==>
      && r.session == s.(state := if s.modemsFound >= 2 then ModemV2gInit else ModemGetSwReq)
      && (s.modemsFound >= 2 ==>
            && |r.out| == 1 && r.out[0].SocCallback?
            && |r.out[0].evccid| == 12 && ParseHex(r.out[0].evccid) == Some(s.pevMac))
      && (s.modemsFound < 2 ==> r.out == [])
    ensures !(s.state == ModemWaitSw && s.modemSearchTimer + ModemSearchTimeout < now) ==> r == Reaction(s, [])
  {
    if s.state == ModemWaitSw && s.modemSearchTimer + ModemSearchTimeout < now then
      if s.modemsFound >= 2 then
        var ready := s.(state := ModemLinkReady);
        var evccid := MacToHex(ready.pevMac);
        ParseHexString(ready.pevMac);
        Reaction(ready.(state := ModemV2gInit), [SocCallback(evccid)])
      else Reaction(s.(state := ModemGetSwReq), [])
    else Reaction(s, [])
  }

  /** Both checks, in the order `Timer20ms` makes them. At most one of them
      acts: firing the sounds deadline leaves ATTEN_CHAR_IND, where the search
      deadline is idle, and the search deadline only acts in MODEM_WAIT_SW. */
  function Deadlines(s: Session, now: nat): (r: Reaction)
    ensures r.session.myMac == s.myMac && r.session.nmk == s.nmk
    ensures s.state == MnbcSound ==> r == SoundsDeadline(s, now)
    ensures s.state != MnbcSound ==> r == SearchDeadline(s, now)
  {
    var a := SoundsDeadline(s, now);
    var b := SearchDeadline(a.session, now);
    Reaction(b.session, a.out + b.out)
  }

  // ---------------------------------------------------------------------
  // The task body

  /** What one pass reads from outside: the signature, write-space and
      read-available registers, the bytes an external read clocks out, the
      key `randomizeNmk` would draw, and `millis()`. */
  datatype TickInput = TickInput(
    signature: U16, writeSpace: U16, available: U16, clocked: seq<Byte>, nmk: Nmk, now: nat)

  predicate InputFits(c: Codes, i: TickInput)
  {
    0 < i.available <= c.bufferSize ==> i.available <= |i.clocked|
  }

  /** The `switch (modem_state)` of the `Timer20ms` task: an entry action for four
      states, polling the modem in every other. */
  function Switch(c: Codes, s: Session, i: TickInput): (r: Outcome)
    requires c.Wf() && InputFits(c, i)
    ensures r.session.myMac == s.myMac
    ensures s.state != ModemSetKeyReq ==> r.session.nmk == s.nmk
    ensures s.state == ModemSetKeyReq ==>
      r == Ran(s.(nmk := i.nmk, state := ModemSetKeyCnf), Send(ComposeSetKey(s.myMac, DefaultNid, i.nmk)))
  {
    match s.state
    case ModemPowerUp =>
      Ran(if i.signature == c.goodSignature then s.(state := ModemWriteSpace) else s, [])
    case ModemWriteSpace =>
      Ran(if i.writeSpace == c.bufferSize then s.(state := ModemSetKeyReq) else s, [])
    case ModemSetKeyReq =>
      var t := s.(nmk := i.nmk);
      Ran(t.(state := ModemSetKeyCnf), Send(ComposeSetKey(t.myMac, DefaultNid, t.nmk)))
    case ModemGetSwReq =>
      Ran(s.(modemsFound := 0, modemSearchTimer := i.now, state := ModemWaitSw),
          Send(ComposeGetSwReq(s.myMac)))
    case _ => Poll(c, s, i)
  }

  /** The `default:` branch: read a burst and run the receive loop on it. */
  function Poll(c: Codes, s: Session, i: TickInput): (r: Outcome)
    requires c.Wf() && InputFits(c, i)
    ensures r.session.myMac == s.myMac && r.session.nmk == s.nmk
    // nothing readable: no SPI traffic and no change
    ensures !(0 < i.available <= c.bufferSize) ==> r == Ran(s, [])
    // otherwise the read comes first, then the frames it held are processed
    ensures 0 < i.available <= c.bufferSize ==>
      && |r.out| >= 2
      && r.out[..2] == [Spi(SetBufferSize(i.available)), Spi(ReadExternal(i.available))]
    // the receive loop then runs over all `available` bytes read, at `now`
    ensures 0 < i.available <= c.bufferSize ==>
      var d := Drain(c, s.(rx := ReadBurst(i.available, c.bufferSize, i.clocked, s.rx).dst), i.available, i.now);
      && r.session == d.session && r.out[2..] == d.out
      && r.Ran? == d.Ran? && r.Spins? == d.Spins?
  {
    var rb := ReadBurst(i.available, c.bufferSize, i.clocked, s.rx);
    var polled := seq(|rb.ops|, k requires 0 <= k < |rb.ops| => Spi(rb.ops[k]));
    var drained := Drain(c, s.(rx := rb.dst), rb.count, i.now);
    assert rb.count > 0 ==> polled == [Spi(SetBufferSize(i.available)), Spi(ReadExternal(i.available))];
    assert rb.count > 0 ==> (polled + drained.out)[..2] == polled;
    Prepend(polled, drained)
  }

  /** One pass of the `while(1)` body of `Timer20ms`, without the delay: the
      switch, then, if the receive loop ended, the two deadline checks. */
  function Step(c: Codes, s: Session, i: TickInput): (r: Outcome)
    requires c.Wf() && InputFits(c, i)
    ensures r.session.myMac == s.myMac
    // the network key only changes when a SET_KEY.REQ is sent
    ensures s.state != ModemSetKeyReq ==> r.session.nmk == s.nmk
    ensures s.state == ModemSetKeyReq ==>
      r.session.nmk == i.nmk && |r.out| >= 2 && r.out[..2] == Send(ComposeSetKey(s.myMac, DefaultNid, i.nmk))
  {
    match Switch(c, s, i)
    case Ran(t, out) =>
      var d := Deadlines(t, i.now);
      Ran(d.session, out + d.out)
    case other => other
  }
}

=== FILE: dispatch_props.dfy ===
/** Properties of one pass of `Timer20ms` (src/main.cpp:504-631): the entry
    actions, the receive path against the write framing, the reset on
    invalid data, and the two deadlines. */
module DispatchProperties {
  import opened Bytes
  import opened Transport
  import opened Codec
  import opened Slac
  import opened Dispatch

  /** The states in which the `Timer20ms` task polls the modem (the `default:` branch). */
  predicate Polls(st: ModemState)
  {
    st !in {ModemPowerUp, ModemWriteSpace, ModemSetKeyReq, ModemGetSwReq}
  }

  /** The entry actions: the modem is found by its signature, its write
      space must be the full buffer, and then SET_KEY.REQ goes out with the
      fresh key. */
  lemma ModemBringUp(c: Codes, s: Session, i: TickInput)
    requires c.Wf() && InputFits(c, i)
    ensures s.state == ModemPowerUp ==>
      Step(c, s, i) == Ran(s.(state := if i.signature == c.goodSignature then ModemWriteSpace else ModemPowerUp), [])
    ensures s.state == ModemWriteSpace ==>
      Step(c, s, i) == Ran(s.(state := if i.writeSpace == c.bufferSize then ModemSetKeyReq else ModemWriteSpace), [])
    ensures s.state == ModemSetKeyReq ==>
      var r := Step(c, s, i);
      && r.Ran? && r.session == s.(state := ModemSetKeyCnf, nmk := i.nmk) && |r.out| == 2
      && var sent := UnwrapBurst(r.out[1].op.bytes);
         && sent.Some? && |sent.value| == SetKeyLength
         && sent.value[33..40] == DefaultNid && sent.value[41..57] == i.nmk
         && MessageType(sent.value) == 0x6008
  {
  }

  /** Entering modem discovery: GET_SW.REQ is broadcast, the counter is
      cleared and the search timer starts. */
  lemma DiscoveryStarts(c: Codes, s: Session, i: TickInput)
    requires c.Wf() && InputFits(c, i)
    requires s.state == ModemGetSwReq
    ensures var r := Step(c, s, i);
      && r == Ran(s.(state := ModemWaitSw, modemsFound := 0, modemSearchTimer := i.now),
                  Send(ComposeGetSwReq(s.myMac)))
      && UnwrapBurst(r.out[1].op.bytes) == Some(ComposeGetSwReq(s.myMac))
  {
  }

  /** The receive path undoes the write framing: when the modem hands over
      its 4-byte length word followed by a burst framed as
      `qcaspi_write_burst` frames it, the burst is accepted, it is the only
      frame, and the unwrapped buffer starts with the payload. */
  lemma BurstIsUnwrapped(c: Codes, s: Session, lengthWord: seq<Byte>, payload: seq<Byte>, now: nat)
    requires c.Wf()
    requires |lengthWord| == 4 && MinFrame <= |payload|
    requires |payload| + RxOverhead <= c.bufferSize
    ensures var n := |payload| + RxOverhead;
      var rb := ReadBurst(n, c.bufferSize, lengthWord + Wire(payload), s.rx);
      var t := s.(rx := rb.dst);
      && rb.count == n
      && HeaderAccepted(t.rx) && AnnouncedLength(t.rx) == |payload|
      && Unwrapped(t.rx, n)[..|payload|] == payload
      && var u := Unwrapped(t.rx, n);
         && FrameType(u) == FrameType(payload) && MessageType(u) == MessageType(payload)
         && var d := Deliver(c, t.(rx := u), |payload|, now);
            && DispatchOnce(c, t, n, now) == Finish(d.session, d.out)
            // a HomePlug AV payload reaches the SLAC state machine
            && (FrameType(payload) == c.frameHomePlug ==> d == SlacManager(c, t.(rx := u), now))
  {
    var n := |payload| + RxOverhead;
    var rb := ReadBurst(n, c.bufferSize, lengthWord + Wire(payload), s.rx);
    var dst: RxBuffer := rb.dst;
    FramedBurstAtFront(dst, lengthWord, payload, n);
    var u := Unwrapped(dst, n);
    assert u[12] == payload[12] && u[13] == payload[13];
    assert u[15] == payload[15] && u[16] == payload[16];
  }

  /** A pass that reads one HomePlug AV burst: the read comes first, then the
      frame, unwrapped, goes to `SlacManager` at the pass's clock, and then
      the deadline checks run on the resulting session. */
  lemma PolledFrameReachesSlac(c: Codes, s: Session, i: TickInput, lengthWord: seq<Byte>, payload: seq<Byte>)
    requires c.Wf() && Polls(s.state)
    requires |lengthWord| == 4 && MinFrame <= |payload|
    requires i.available == |payload| + RxOverhead <= c.bufferSize
    requires i.clocked == lengthWord + Wire(payload)
    requires FrameType(payload) == c.frameHomePlug
    ensures InputFits(c, i)
    ensures var n := i.available;
      var u := Unwrapped(ReadBurst(n, c.bufferSize, i.clocked, s.rx).dst, n);
      var d := SlacManager(c, s.(rx := u), i.now);
      var e := Deadlines(d.session, i.now);
      && u[..|payload|] == payload
      && Step(c, s, i) == Ran(e.session, [Spi(SetBufferSize(n)), Spi(ReadExternal(n))] + d.out + e.out)
  {
    var n := i.available;
    BurstIsUnwrapped(c, s, lengthWord, payload, i.now);
    var rb := ReadBurst(n, c.bufferSize, i.clocked, s.rx);
    var u := Unwrapped(rb.dst, n);
    var d := SlacManager(c, s.(rx := u), i.now);
    assert s.(rx := rb.dst).(rx := u) == s.(rx := u);
    assert Drain(c, s.(rx := rb.dst), n, i.now) == Ran(d.session, d.out);
    assert Switch(c, s, i) == Poll(c, s, i);
  }

  /** A burst without the preamble resets the modem and returns to
      MODEM_POWERUP; the rest of the session (vehicle MAC, RunId, NMK,
      accumulators) is left as it was, and the receive loop then spins on
      it. */
  lemma MalformedBurstResets(c: Codes, s: Session, i: TickInput)
    requires c.Wf() && InputFits(c, i) && Polls(s.state)
    requires 8 <= i.available <= c.bufferSize && i.clocked[4..8] != Preamble
    ensures var r := Step(c, s, i);
      && r.Spins?
      && r.session.state == ModemPowerUp
      && r.session.(state := s.state, rx := s.rx) == s
      && r.out == [Spi(SetBufferSize(i.available)), Spi(ReadExternal(i.available)), Spi(ResetModem)]
  {
    var rb := ReadBurst(i.available, c.bufferSize, i.clocked, s.rx);
    assert rb.dst[4..8] == i.clocked[4..8];
  }

  /** With nothing to read (zero bytes, or more than the modem's buffer),
      only the deadline checks act. */
  lemma NothingToRead(c: Codes, s: Session, i: TickInput)
    requires c.Wf() && InputFits(c, i) && Polls(s.state)
    requires i.available == 0 || i.available > c.bufferSize
    ensures Step(c, s, i) == Ran(Deadlines(s, i.now).session, Deadlines(s, i.now).out)
  {
    assert Switch(c, s, i) == Poll(c, s, i) == Ran(s, []);
    assert [] + Deadlines(s, i.now).out == Deadlines(s, i.now).out;
  }

  /** When the 600 ms of sounding are over, CM_ATTEN_CHAR.IND goes out with
      whatever has been accumulated, ten sounds or not: 129 of its 130 bytes,
      carrying the sound count at 69, 58 groups at 70 and the low byte of
      each accumulator from 71 on. */
  lemma SoundsTimerExpires(c: Codes, s: Session, i: TickInput)
    requires c.Wf() && InputFits(c, i)
    requires s.state == MnbcSound && s.soundsTimer + SoundsTimeout < i.now
    requires i.available == 0
    ensures var r := Step(c, s, i);
      && r == Ran(s.(state := AttenCharInd), r.out)
      && |r.out| == 2 && r.out[0] == Spi(SetBufferSize(AttenCharIndSent + Overhead))
      && var sent := UnwrapBurst(r.out[1].op.bytes);
         && sent.Some? && |sent.value| == AttenCharIndSent
         && sent.value == ComposeAttenCharInd(s.myMac, s.pevMac, s.pevRunId, s.receivedSounds, s.avgAcVar)[..AttenCharIndSent]
         && MacAt(sent.value, 21) == s.pevMac && RunIdAt(sent.value, 27) == s.pevRunId
         && sent.value[69] == s.receivedSounds && sent.value[70] == 0x3A
         && (forall x | 0 <= x < Groups :: sent.value[71 + x] == s.avgAcVar[x] % 0x100)
  {
    var frame := ComposeAttenCharInd(s.myMac, s.pevMac, s.pevRunId, s.receivedSounds, s.avgAcVar);
    assert MacAt(frame[..AttenCharIndSent], 21) == MacAt(frame, 21);
    assert RunIdAt(frame[..AttenCharIndSent], 27) == RunIdAt(frame, 27);
  }

  /** Sending 129 of the 130 composed bytes drops only the last byte, which
      is padding: no field of ATTEN_CHAR.IND is lost. */
  lemma AttenCharIndTruncation(myMac: Mac, pevMac: Mac, runId: RunId, sounds: Byte, avg: AcVar)
    ensures var f := ComposeAttenCharInd(myMac, pevMac, runId, sounds, avg);
      f == f[..AttenCharIndSent] + [0]
  {
  }

  /** When the 1000 ms of modem discovery are over, two or more replies
      complete the pairing: the vehicle is reported by its MAC as text and
      the session moves on to MODEM_V2G_INIT. Fewer replies restart the
      search. */
  lemma SearchTimerExpires(c: Codes, s: Session, i: TickInput)
    requires c.Wf() && InputFits(c, i)
    requires s.state == ModemWaitSw && s.modemSearchTimer + ModemSearchTimeout < i.now
    requires i.available == 0
    ensures s.modemsFound >= 2 ==>
      Step(c, s, i) == Ran(s.(state := ModemV2gInit), [SocCallback(MacToHex(s.pevMac))])
    ensures s.modemsFound < 2 ==> Step(c, s, i) == Ran(s.(state := ModemGetSwReq), [])
  {
  }

  /** Deadlines only act in their own state: in any other state they change
      nothing. */
  lemma DeadlinesIdleElsewhere(s: Session, now: nat)
    requires s.state != MnbcSound && s.state != ModemWaitSw
    ensures Deadlines(s, now) == Reaction(s, [])
  {
  }

  /** The loop in which the `Timer20ms` task is caught after invalid data: from the
      configuration the first rejection leaves, each of any number `k` of
      further iterations rejects again, resets the modem once more, and
      leaves the same configuration. */
  lemma {:induction false} SpinsForever(c: Codes, s: Session, reg16: nat, now: nat, k: nat)
    requires c.Wf() && 0 < reg16 <= c.bufferSize
    requires DispatchOnce(c, s, reg16, now).Reject?
    ensures var t := DispatchOnce(c, s, reg16, now).session;
      Repeat(c, t, reg16, now, k) == (t, seq(k, _ => Spi(ResetModem)))
  {
    var t := DispatchOnce(c, s, reg16, now).session;
    RejectRepeats(c, s, reg16, now);
    if k > 0 {
      SpinsForever(c, s, reg16, now, k - 1);
      assert [Spi(ResetModem)] + seq(k - 1, _ => Spi(ResetModem)) == seq(k, _ => Spi(ResetModem));
    }
  }

  /** `k` further iterations of the loop body, as long as they reject, with
      what they emit. */
  function Repeat(c: Codes, s: Session, reg16: nat, now: nat, k: nat): (Session, seq<Output>)
    requires c.Wf() && 0 < reg16 <= c.bufferSize
    decreases k
  {
    if k == 0 then (s, [])
    else
      match DispatchOnce(c, s, reg16, now)
      case Reject(t, out) =>
        var rest := Repeat(c, t, reg16, now, k - 1);
        (rest.0, out + rest.1)
      case _ => (s, [])
  }

  /** Two frames delivered in one read: the first is unwrapped and
      delivered, the loop continues with exactly the second burst's bytes
      counted, and the second burst, moved to the front, is accepted and
      unwraps to its payload. `s.rx` is the buffer after `qcaspi_read_burst`
      of `n` bytes. */
  lemma TwoFramesInOneRead(c: Codes, s: Session, w1: seq<Byte>, p1: seq<Byte>,
                           w2: seq<Byte>, p2: seq<Byte>, n: nat, now: nat)
    requires c.Wf()
    requires |w1| == 4 && |w2| == 4 && MinFrame <= |p1| && MinFrame <= |p2|
    requires n == |p1| + |p2| + 2 * RxOverhead <= c.bufferSize
    requires s.rx[..n] == w1 + Wire(p1) + w2 + Wire(p2)
    ensures Unwrapped(s.rx, n)[..|p1|] == p1
    ensures var r := DispatchOnce(c, s, n, now);
      && r.Continue? && r.remaining == |p2| + RxOverhead
      && r.out == Deliver(c, s.(rx := Unwrapped(s.rx, n)), |p1|, now).out
      && HeaderAccepted(r.session.rx) && AnnouncedLength(r.session.rx) == |p2|
      && Unwrapped(r.session.rx, r.remaining)[..|p2|] == p2
  {
    var first := |p1| + RxOverhead;
    var m := |p2| + RxOverhead;
    var b2 := w2 + Wire(p2);
    ReadHoldsBoth(s.rx, w1 + Wire(p1), b2);
    FramedBurstAtFront(s.rx, w1, p1, first);
    assert Unwrapped(s.rx, n)[..|p1|] == p1 by {
      forall j | 0 <= j < |p1|
        ensures Unwrapped(s.rx, n)[j] == Unwrapped(s.rx, first)[j]
      {
      }
    }
    assert s.rx[first..first + m - 2] == b2[..m - 2] by {
      assert s.rx[first..first + m - 2] == s.rx[first..first + m][..m - 2];
    }
    SecondBurstMoved(c, s, w2, p2, first, now);
  }

  /** After a read of two bursts, each lies where the other does not. */
  lemma ReadHoldsBoth(dst: seq<Byte>, b1: seq<Byte>, b2: seq<Byte>)
    requires |b1| + |b2| <= |dst| && dst[..|b1| + |b2|] == b1 + b2
    ensures dst[..|b1|] == b1
    ensures dst[|b1|..|b1| + |b2|] == b2
  {
    assert dst[..|b1|] == dst[..|b1| + |b2|][..|b1|];
    assert dst[|b1|..|b1| + |b2|] == dst[..|b1| + |b2|][|b1|..];
  }

  /** A first frame of announced length `first - 14` followed by a second
      burst: the loop continues with the second burst's bytes counted, and
      that burst, moved to the front without its footer, is accepted and
      unwraps to its payload. */
  lemma SecondBurstMoved(c: Codes, s: Session, w: seq<Byte>, p: seq<Byte>, first: nat, now: nat)
    requires c.Wf() && HeaderAccepted(s.rx) && AnnouncedLength(s.rx) + RxOverhead == first
    requires |w| == 4 && MinFrame <= |p| && first + |p| + RxOverhead <= c.bufferSize
    requires s.rx[first..first + |p| + 12] == (w + Wire(p))[..|p| + 12]
    ensures var r := DispatchOnce(c, s, first + |p| + RxOverhead, now);
      && r.Continue? && r.remaining == |p| + RxOverhead
      && HeaderAccepted(r.session.rx) && AnnouncedLength(r.session.rx) == |p|
      && Unwrapped(r.session.rx, r.remaining)[..|p|] == p
  {
    var m := |p| + RxOverhead;
    var r := DispatchOnce(c, s, first + m, now);
    assert r.session.rx[..m - 2] == s.rx[first..first + m - 2];
    FramedBurstAtFront(r.session.rx, w, p, m - 2);
  }

  /** A last burst that fills the count exactly is delivered and ends the
      loop. */
  lemma LastFrameFinishes(c: Codes, s: Session, p: seq<Byte>, now: nat)
    requires c.Wf() && HeaderAccepted(s.rx) && AnnouncedLength(s.rx) == |p|
    requires |p| + RxOverhead <= c.bufferSize
    ensures var m := |p| + RxOverhead;
      var d := Deliver(c, s.(rx := Unwrapped(s.rx, m)), |p|, now);
      Drain(c, s, m, now) == Ran(d.session, d.out)
  {
    var m := |p| + RxOverhead;
    assert DispatchOnce(c, s, m, now).Finish?;
  }

  /** The receive loop handles both frames of a two-frame read, in order:
      what it emits is what delivering the first frame emits followed by what
      delivering the second emits, and each delivered buffer starts with its
      payload. */
  lemma TwoFramesDrained(c: Codes, s: Session, w1: seq<Byte>, p1: seq<Byte>,
                         w2: seq<Byte>, p2: seq<Byte>, n: nat, now: nat)
    requires c.Wf()
    requires |w1| == 4 && |w2| == 4 && MinFrame <= |p1| && MinFrame <= |p2|
    requires n == |p1| + |p2| + 2 * RxOverhead <= c.bufferSize
    requires s.rx[..n] == w1 + Wire(p1) + w2 + Wire(p2)
    ensures var u1 := Unwrapped(s.rx, n);
      var d1 := Deliver(c, s.(rx := u1), |p1|, now);
      var t := DispatchOnce(c, s, n, now).session;
      var u2 := Unwrapped(t.rx, |p2| + RxOverhead);
      var d2 := Deliver(c, t.(rx := u2), |p2|, now);
      && u1[..|p1|] == p1 && u2[..|p2|] == p2
      && Drain(c, s, n, now) == Ran(d2.session, d1.out + d2.out)
  {
    TwoFramesInOneRead(c, s, w1, p1, w2, p2, n, now);
    var r := DispatchOnce(c, s, n, now);
    LastFrameFinishes(c, r.session, p2, now);
  }

  /** The receive loop's framing test is weaker than the strict parser: every
      burst the parser accepts, with a frame of at least 60 bytes, passes it
      with the right length; the reserved bytes and the footer, which the
      parser also checks, are not looked at. */
  lemma StrictBurstAccepted(rx: RxBuffer, p: seq<Byte>, v: Byte)
    requires MinFrame <= |p| && 4 + |p| + Overhead <= |rx|
    requires UnwrapBurst(rx[4..4 + |p| + Overhead]) == Some(p)
    ensures HeaderAccepted(rx) && AnnouncedLength(rx) == |p|
    // a reserved byte or a footer byte may hold any value `v`
    ensures HeaderAccepted(rx[10 := v]) && HeaderAccepted(rx[4 + |p| + 8 := v])
  {
    var b := rx[4..4 + |p| + Overhead];
    assert b[..4] == rx[4..8];
    assert b[4] == rx[8] && b[5] == rx[9];
    assert rx[10 := v][4..8] == rx[4..8];
    assert rx[4 + |p| + 8 := v][4..8] == rx[4..8];
  }

  /** A buffer that starts with a length word and a framed burst, footer
      included or not, passes the framing test and unwraps to the payload. */
  lemma FramedBurstAtFront(rx: RxBuffer, w: seq<Byte>, p: seq<Byte>, k: nat)
    requires |w| == 4 && MinFrame <= |p| && |p| + 12 <= k <= |p| + RxOverhead
    requires k <= |rx| && rx[..k] == (w + Wire(p))[..k]
    ensures HeaderAccepted(rx) && AnnouncedLength(rx) == |p|
    ensures |p| + RxOverhead <= RxCapacity ==> Unwrapped(rx, |p| + RxOverhead)[..|p|] == p
  {
    var b := w + Wire(p);
    assert forall j | 0 <= j < k :: rx[j] == b[j] by {
      forall j | 0 <= j < k ensures rx[j] == b[j] {
        assert rx[j] == rx[..k][j];
      }
    }
    assert rx[4..8] == Preamble;
    assert rx[4..][4] == rx[8] && rx[4..][5] == rx[9];
    if |p| + RxOverhead <= RxCapacity {
      var u := Unwrapped(rx, |p| + RxOverhead);
      forall j | 0 <= j < |p|
        ensures u[j] == p[j]
      {
        assert u[j] == rx[12 + j] == b[12 + j];
      }
    }
  }
}

=== FILE: scenarios.dfy ===
/** Concrete runs of the model: one vehicle MAC and RunId followed through
    the CM_SLAC_PARAM exchange, and the EVCCID string derived from that MAC. */
module Scenarios {
  import opened Bytes
  import opened Transport
  import opened Codec
  import opened Slac

  const VehicleMac: Mac := [0xAA, 0xBB, 0xCC, 0xDD, 0xEE, 0xFF]
  const VehicleRunId: RunId := [1, 2, 3, 4, 5, 6, 7, 8]

  /** CM_SLAC_PARAM.REQ from AA:BB:CC:DD:EE:FF with RunId 0102030405060708:
      the answer echoes the MAC at bytes 28..33 and the RunId at 36..43,
      announces ten sounds in byte 25 and carries message type 0x6065. */
  lemma SlacParamExchange(c: Codes, s: Session, now: nat)
    requires c.Distinct()
    requires MessageType(s.rx) == c.SlacParamReq()
    requires s.rx[6..12] == VehicleMac && s.rx[21..29] == VehicleRunId
    ensures var r := SlacManager(c, s, now);
      && r.session.state == SlacParamCnf
      && r.session.pevMac == VehicleMac && r.session.pevRunId == VehicleRunId
      && |r.out| == 2
      && var sent := UnwrapBurst(r.out[1].op.bytes);
         && sent.Some? && |sent.value| == 60
         && sent.value[28..34] == VehicleMac
         && sent.value[36..44] == VehicleRunId
         && sent.value[25] == 0x0A
         && sent.value[15] == 0x65 && sent.value[16] == 0x60
         && MessageType(sent.value) == 0x6065
  {
  }

  /** The EVCCID reported for that vehicle. */
  lemma VehicleEvccid()
    ensures MacToHex(VehicleMac) == "aabbccddeeff"
  {
  }
}

=== FILE: slac.dfy ===
/** The EVSE side of SLAC (ISO 15118-3:2016, Annex A): the session record the
    firmware keeps in globals, and `SlacManager`, which reacts to one inbound
    HomePlug AV management message (src/main.cpp:385-464). */
module Slac {
  import opened Bytes
  import opened Transport
  import opened Codec

  /** `modem_state`. The numeric values live in main.h, which is not part of
      this model; only their distinctness matters, which a datatype gives. */
  datatype ModemState =
    | ModemPowerUp      // MODEM_POWERUP
    | ModemWriteSpace   // MODEM_WRITESPACE
    | ModemSetKeyReq    // MODEM_CM_SET_KEY_REQ
    | ModemSetKeyCnf    // MODEM_CM_SET_KEY_CNF
    | ModemConfigured   // MODEM_CONFIGURED
    | SlacParamCnf      // SLAC_PARAM_CNF
    | MnbcSound         // MNBC_SOUND
    | AttenCharInd      // ATTEN_CHAR_IND
    | AttenCharRsp      // ATTEN_CHAR_RSP
    | ModemGetSwReq     // MODEM_GET_SW_REQ
    | ModemWaitSw       // MODEM_WAIT_SW
    | ModemLinkReady    // MODEM_LINK_READY
    | ModemV2gInit      // MODEM_V2G_INIT

  /** The constants of main.h the core compares against. Their values are not
      part of this model, so they are parameters. */
  datatype Codes = Codes(
    cmSetKey: int, cmSlacParam: int, cmStartAttenChar: int, cmMnbcSound: int,
    cmAttenProfile: int, cmAttenChar: int, cmSlacMatch: int, cmGetSw: int,
    mmReq: int, mmCnf: int, mmInd: int, mmRsp: int,
    frameHomePlug: int,     // FRAME_HOMEPLUG; see Codec.HomePlugAvType for the value the composers write
    frameIpv6: int,
    bufferSize: nat,        // QCA7K_BUFFER_SIZE
    goodSignature: int)     // QCASPI_GOOD_SIGNATURE
  {
    function SetKeyCnf(): int { cmSetKey + mmCnf }
    function SlacParamReq(): int { cmSlacParam + mmReq }
    function StartAttenCharInd(): int { cmStartAttenChar + mmInd }
    function MnbcSoundInd(): int { cmMnbcSound + mmInd }
    function AttenProfileInd(): int { cmAttenProfile + mmInd }
    function AttenCharRspType(): int { cmAttenChar + mmRsp }
    function SlacMatchReq(): int { cmSlacMatch + mmReq }
    function GetSwCnf(): int { cmGetSw + mmCnf }

    /** The eight inbound message types the core recognises are different
        values, as they are in HomePlug AV. */
    predicate Distinct()
    {
      && SetKeyCnf() !in {SlacParamReq(), StartAttenCharInd(), MnbcSoundInd(), AttenProfileInd(),
                          AttenCharRspType(), SlacMatchReq(), GetSwCnf()}
      && SlacParamReq() !in {StartAttenCharInd(), MnbcSoundInd(), AttenProfileInd(),
                             AttenCharRspType(), SlacMatchReq(), GetSwCnf()}
      && StartAttenCharInd() !in {MnbcSoundInd(), AttenProfileInd(), AttenCharRspType(),
                                  SlacMatchReq(), GetSwCnf()}
      && MnbcSoundInd() !in {AttenProfileInd(), AttenCharRspType(), SlacMatchReq(), GetSwCnf()}
      && AttenProfileInd() !in {AttenCharRspType(), SlacMatchReq(), GetSwCnf()}
      && AttenCharRspType() !in {SlacMatchReq(), GetSwCnf()}
      && SlacMatchReq() != GetSwCnf()
    }

    /** The modem's buffer fits the firmware's receive buffer (the guard in
        `qcaspi_read_burst` exists to prevent overflowing it). */
    predicate Wf()
    {
      bufferSize <= RxCapacity
    }
  }

  /** `uint8_t rxbuffer[3164]`. */
  const RxCapacity: nat := 3164
  type RxBuffer = b: seq<Byte> | |b| == RxCapacity witness seq(RxCapacity, _ => 0)

  /** The globals of the SLAC core. `myMac` is fixed at boot; the NID is the
      constant `DefaultNid`. */
  datatype Session = Session(
    state: ModemState,
    myMac: Mac,
    pevMac: Mac,
    myModemMac: Mac,
    pevModemMac: Mac,
    pevRunId: RunId,
    avgAcVar: AcVar,
    nmk: Nmk,
    soundsTimer: nat,
    modemSearchTimer: nat,
    modemsFound: Byte,
    receivedSounds: Byte,
    rx: RxBuffer)

  /** What the core does to the outside world. */
  datatype Output =
    | Spi(op: SpiOp)                          // to the modem
    | ToIpv6(buffer: seq<Byte>, length: nat)  // IPv6Manager(rxbytes), reading rxbuffer
    | SocCallback(evccid: string)             // sendSocCallback(..., evccid)

  /** `qcaspi_write_burst(txbuffer, |frame|)`. */
  function Send(frame: seq<Byte>): (out: seq<Output>)
    requires |frame| < 0x1_0000_0000
    ensures |out| == 2 && out[1].Spi? && out[1].op.WriteExternal?
    ensures out[0] == Spi(SetBufferSize((|frame| + Overhead) % 0x1_0000))
    ensures UnwrapBurst(out[1].op.bytes) == (if |frame| < 0x1_0000 then Some(frame) else None)
  {
    var ops := WriteBurst(frame);
    var out := [Spi(ops[0]), Spi(ops[1])];
    if |frame| < 0x1_0000 then UnwrapWire(frame, frame); out
    else LongPayloadIsLost(frame); out
  }

  /** The new session and the outputs of handling one message. */
  datatype Reaction = Reaction(session: Session, out: seq<Output>)

  // ---------------------------------------------------------------------
  // Sounding arithmetic

  /** Number of accumulators `memset(AvgACVar, 0x00, 58)` clears: 58 bytes
      are 29 `uint16_t` entries. */
  const ClearedGroups: nat := 29

  /** The reset at CM_START_ATTEN_CHAR.IND. */
  function ClearAverages(avg: AcVar): (r: AcVar)
    ensures forall x | 0 <= x < ClearedGroups :: r[x] == 0
    ensures r[ClearedGroups..] == avg[ClearedGroups..]
  {
    Zeros(ClearedGroups) + avg[ClearedGroups..]
  }

  /** The 58 attenuation samples of a CM_ATTEN_PROFILE.IND, bytes 27..84. */
  function Samples(rx: RxBuffer): (r: seq<Byte>)
    ensures |r| == Groups
  {
    rx[27..27 + Groups]
  }

  /** `AvgACVar[x] += rxbuffer[27+x]` for every group, with `uint16_t`
      wrap-around. */
  function Accumulate(avg: AcVar, samples: seq<Byte>): (r: AcVar)
    requires |samples| == Groups
    ensures forall x | 0 <= x < Groups :: r[x] == (avg[x] + samples[x]) % 0x1_0000
    ensures forall x | 0 <= x < Groups :: avg[x] + samples[x] < 0x1_0000 ==> r[x] == avg[x] + samples[x]
  {
    seq(Groups, x requires 0 <= x < Groups => Low16(avg[x] + samples[x]))
  }

  /** `AvgACVar[x] = AvgACVar[x] / ReceivedSounds`, truncating. */
  function Divide(avg: AcVar, n: nat): (r: AcVar)
    requires n > 0
    ensures forall x | 0 <= x < Groups :: r[x] * n <= avg[x] < (r[x] + 1) * n
  {
    seq(Groups, x requires 0 <= x < Groups => avg[x] / n)
  }

  /** Number of sounds after which the accumulators are averaged. */
  const SoundCount: nat := 10

  // ---------------------------------------------------------------------
  // Handlers, one per branch of SlacManager

  /** CM_SET_KEY.CNF: on success, the modem is configured and its MAC kept. */
  function OnSetKeyCnf(s: Session): (t: Session)
    ensures t.state == (if s.rx[19] == 0x01 then ModemConfigured else s.state)
    ensures t.myModemMac == (if s.rx[19] == 0x01 then MacAt(s.rx, 6) else s.myModemMac)
    ensures t.(state := s.state, myModemMac := s.myModemMac) == s
  {
    if s.rx[19] == 0x01 then s.(state := ModemConfigured, myModemMac := s.rx[6..12]) else s
  }

  /** CM_SLAC_PARAM.REQ: capture the vehicle's MAC and RunId and answer. */
  function OnSlacParamReq(s: Session): (r: Reaction)
    ensures r.session.state == SlacParamCnf
    ensures r.session.pevMac == MacAt(s.rx, 6) && r.session.pevRunId == RunIdAt(s.rx, 21)
    ensures r.session.(state := s.state, pevMac := s.pevMac, pevRunId := s.pevRunId) == s
    // the answer is one burst carrying the 60-byte CNF addressed to the sender
    ensures |r.out| == 2 && r.out[1].Spi? && r.out[1].op.WriteExternal?
    ensures var sent := UnwrapBurst(r.out[1].op.bytes);
      && sent.Some? && |sent.value| == SlacParamCnfLength
      && MacAt(sent.value, 0) == MacAt(s.rx, 6) && RunIdAt(sent.value, 36) == RunIdAt(s.rx, 21)
  {
    var t := s.(pevMac := s.rx[6..12], pevRunId := s.rx[21..29]);
    Reaction(t.(state := SlacParamCnf), Send(ComposeSlacParamCnf(t.myMac, t.pevMac, t.pevRunId)))
  }

  /** CM_START_ATTEN_CHAR.IND: start the sounds timer and reset the counters. */
  function OnStartAttenChar(s: Session, now: nat): (t: Session)
    ensures t.state == MnbcSound && t.soundsTimer == now && t.receivedSounds == 0
    ensures forall x | 0 <= x < ClearedGroups :: t.avgAcVar[x] == 0
    ensures t.avgAcVar[ClearedGroups..] == s.avgAcVar[ClearedGroups..]
    ensures t.(state := s.state, soundsTimer := s.soundsTimer, receivedSounds := s.receivedSounds,
               avgAcVar := s.avgAcVar) == s
  {
    s.(soundsTimer := now, avgAcVar := ClearAverages(s.avgAcVar), receivedSounds := 0, state := MnbcSound)
  }

  /** CM_MNBC_SOUND.IND: count one sound (`uint8_t` increment). */
  function OnMnbcSound(s: Session): (t: Session)
    ensures t.receivedSounds == (s.receivedSounds + 1) % 0x100
    ensures s.receivedSounds < 0xFF ==> t.receivedSounds == s.receivedSounds + 1
    ensures t.(receivedSounds := s.receivedSounds) == s
  {
    s.(receivedSounds := Low8(s.receivedSounds + 1))
  }

  /** CM_ATTEN_PROFILE.IND: add the samples; when ten sounds have been
      counted, replace every accumulator by its tenth. */
  function AttenProfile(avg: AcVar, received: Byte, samples: seq<Byte>): (r: AcVar)
    requires |samples| == Groups
    ensures received != SoundCount ==>
      forall x | 0 <= x < Groups :: r[x] == (avg[x] + samples[x]) % 0x1_0000
    ensures received == SoundCount ==>
      forall x | 0 <= x < Groups :: r[x] == ((avg[x] + samples[x]) % 0x1_0000) / SoundCount
  {
    var sum := Accumulate(avg, samples);
    if received == SoundCount then Divide(sum, received) else sum
  }

  function OnAttenProfile(s: Session): (t: Session)
    ensures forall x | 0 <= x < Groups ::
      t.avgAcVar[x] == (if s.receivedSounds == SoundCount
                        then ((s.avgAcVar[x] + s.rx[27 + x]) % 0x1_0000) / SoundCount
                        else (s.avgAcVar[x] + s.rx[27 + x]) % 0x1_0000)
    ensures t.(avgAcVar := s.avgAcVar) == s
  {
    s.(avgAcVar := AttenProfile(s.avgAcVar, s.receivedSounds, Samples(s.rx)))
  }

  /** The verification of a CM_ATTEN_CHAR.RSP: the vehicle's MAC and the RunId
      are echoed and the result field is zero. */
  predicate AttenRspVerified(s: Session)
  {
    MacAt(s.rx, 21) == s.pevMac && RunIdAt(s.rx, 27) == s.pevRunId && s.rx[69] == 0
  }

  /** CM_ATTEN_CHAR.RSP: a verified response completes sounding; any other
      falls back to MODEM_CONFIGURED rather than being ignored. */
  function OnAttenCharRsp(s: Session): (t: Session)
    ensures t.state == (if AttenRspVerified(s) then AttenCharRsp else ModemConfigured)
    ensures t.(state := s.state) == s
  {
    if s.rx[21..27] == s.pevMac && s.rx[27..35] == s.pevRunId && s.rx[69] == 0
    then s.(state := AttenCharRsp)
    else s.(state := ModemConfigured)
  }

  /** The verification of a CM_SLAC_MATCH.REQ: the vehicle's MAC and the RunId
      are echoed and the MVF length byte is 0x3E. */
  predicate MatchReqVerified(s: Session)
  {
    MacAt(s.rx, 40) == s.pevMac && RunIdAt(s.rx, 69) == s.pevRunId && s.rx[21] == 0x3E
  }

  /** CM_SLAC_MATCH.REQ: a verified request is answered with CM_SLAC_MATCH.CNF
      and the modem search follows; any other is ignored. */
  function OnSlacMatchReq(s: Session): (r: Reaction)
    ensures MatchReqVerified(s) ==>
      r == Reaction(s.(state := ModemGetSwReq),
                    Send(ComposeSlacMatchCnf(s.myMac, s.pevMac, s.pevRunId, DefaultNid, s.nmk)))
    ensures !MatchReqVerified(s) ==> r == Reaction(s, [])
    // a verified request is answered by one burst carrying the 109-byte CNF,
    // which echoes the request's MAC and RunId and hands over our NMK
    ensures MatchReqVerified(s) ==>
      && |r.out| == 2 && r.out[1].Spi? && r.out[1].op.WriteExternal?
      && var sent := UnwrapBurst(r.out[1].op.bytes);
         && sent.Some? && |sent.value| == SlacMatchCnfLength
         && MacAt(sent.value, 0) == MacAt(s.rx, 40) && MacAt(sent.value, 40) == MacAt(s.rx, 40)
         && RunIdAt(sent.value, 69) == RunIdAt(s.rx, 69)
         && sent.value[93..109] == s.nmk
  {
    if MatchReqVerified(s) then
      var cnf := ComposeSlacMatchCnf(s.myMac, s.pevMac, s.pevRunId, DefaultNid, s.nmk);
      assert MacAt(cnf, 0) == MacAt(cnf, 40) == MacAt(s.rx, 40) && RunIdAt(cnf, 69) == RunIdAt(s.rx, 69);
      Reaction(s.(state := ModemGetSwReq), Send(cnf))
    else Reaction(s, [])
  }

  /** CM_GET_SW.CNF: remember a modem other than our own, and count the
      reply (every reply, `uint8_t`). */
  function OnGetSwCnf(s: Session): (t: Session)
    ensures t.modemsFound == (s.modemsFound + 1) % 0x100
    ensures t.pevModemMac == (if MacAt(s.rx, 6) != s.myModemMac then MacAt(s.rx, 6) else s.pevModemMac)
    ensures t.(modemsFound := s.modemsFound, pevModemMac := s.pevModemMac) == s
  {
    var u := if s.rx[6..12] != s.myModemMac then s.(pevModemMac := s.rx[6..12]) else s;
    u.(modemsFound := Low8(s.modemsFound + 1))
  }

  // ---------------------------------------------------------------------
  // The dispatcher

  /** `SlacManager`: react to the HomePlug AV message at the start of `s.rx`.
      `now` is the value `millis()` returns. Only CM_SET_KEY.CNF and
      CM_SLAC_PARAM.REQ are accepted in every state. */
  function SlacManager(c: Codes, s: Session, now: nat): (r: Reaction)
    // what never changes here
    ensures r.session.myMac == s.myMac && r.session.nmk == s.nmk && r.session.rx == s.rx
    // the two verification gates are the only ways forward past sounding
    ensures r.session.state == AttenCharRsp ==>
      s.state == AttenCharRsp || (s.state == AttenCharInd && AttenRspVerified(s))
    ensures r.session.state == ModemGetSwReq ==>
      s.state == ModemGetSwReq || (s.state == AttenCharRsp && MatchReqVerified(s))
    // the vehicle's identity is only taken from a SLAC_PARAM.REQ
    ensures r.session.pevMac != s.pevMac || r.session.pevRunId != s.pevRunId ==>
      r.session.state == SlacParamCnf && r.session.pevMac == MacAt(s.rx, 6)
      && r.session.pevRunId == RunIdAt(s.rx, 21)
    // the only frames sent are the two answers
    ensures r.out == [] || r.out == Send(ComposeSlacParamCnf(s.myMac, MacAt(s.rx, 6), RunIdAt(s.rx, 21)))
      || r.out == Send(ComposeSlacMatchCnf(s.myMac, s.pevMac, s.pevRunId, DefaultNid, s.nmk))
  {
    var mnt := MessageType(s.rx);
    if mnt == c.SetKeyCnf() then Reaction(OnSetKeyCnf(s), [])
    else if mnt == c.SlacParamReq() then OnSlacParamReq(s)
    else if mnt == c.StartAttenCharInd() && s.state == SlacParamCnf then Reaction(OnStartAttenChar(s, now), [])
    else if mnt == c.MnbcSoundInd() && s.state == MnbcSound then Reaction(OnMnbcSound(s), [])
    else if mnt == c.AttenProfileInd() && s.state == MnbcSound then Reaction(OnAttenProfile(s), [])
    else if mnt == c.AttenCharRspType() && s.state == AttenCharInd then Reaction(OnAttenCharRsp(s), [])
    else if mnt == c.SlacMatchReq() && s.state == AttenCharRsp then OnSlacMatchReq(s)
    else if mnt == c.GetSwCnf() && s.state == ModemWaitSw then Reaction(OnGetSwCnf(s), [])
    else Reaction(s, [])
  }
}

=== FILE: slac_props.dfy ===
/** The transition table of `SlacManager` (src/main.cpp:385-464), one lemma
    per inbound message, and the claim that everything outside the table is
    ignored. */
module SlacProperties {
  import opened Bytes
  import opened Transport
  import opened Codec
  import opened Slac

  /** The (state, message type) pairs `SlacManager` acts on. */
  predicate Handled(c: Codes, st: ModemState, mnt: int)
  {
    || mnt == c.SetKeyCnf()
    || mnt == c.SlacParamReq()
    || (mnt == c.StartAttenCharInd() && st == SlacParamCnf)
    || (mnt == c.MnbcSoundInd() && st == MnbcSound)
    || (mnt == c.AttenProfileInd() && st == MnbcSound)
    || (mnt == c.AttenCharRspType() && st == AttenCharInd)
    || (mnt == c.SlacMatchReq() && st == AttenCharRsp)
    || (mnt == c.GetSwCnf() && st == ModemWaitSw)
  }

  /** A message outside the table, or one whose state guard fails, changes
      nothing and sends nothing. */
  lemma UnhandledIsIgnored(c: Codes, s: Session, now: nat)
    requires !Handled(c, s.state, MessageType(s.rx))
    ensures SlacManager(c, s, now) == Reaction(s, [])
  {
  }

  /** CM_SET_KEY.CNF is taken in any state; only a success flag in byte 19
      moves to MODEM_CONFIGURED, and a failure leaves everything as it was. */
  lemma SetKeyCnfAnyState(c: Codes, s: Session, now: nat)
    requires MessageType(s.rx) == c.SetKeyCnf()
    ensures var r := SlacManager(c, s, now);
      && r.out == []
      && r.session.state == (if s.rx[19] == 0x01 then ModemConfigured else s.state)
      && r.session.myModemMac == (if s.rx[19] == 0x01 then s.rx[6..12] else s.myModemMac)
      && r.session.(state := s.state, myModemMac := s.myModemMac) == s
  {
  }

  /** CM_SLAC_PARAM.REQ, in any state, takes the vehicle's MAC from bytes
      6..11 and the RunId from bytes 21..28, answers with one 60-byte
      CM_SLAC_PARAM.CNF carrying both, and enters SLAC_PARAM_CNF. */
  lemma SlacParamReqAnyState(c: Codes, s: Session, now: nat)
    requires c.Distinct()
    requires MessageType(s.rx) == c.SlacParamReq()
    ensures var r := SlacManager(c, s, now);
      && r.session.state == SlacParamCnf
      && r.session.pevMac == s.rx[6..12]
      && r.session.pevRunId == s.rx[21..29]
      && r.session.(state := s.state, pevMac := s.pevMac, pevRunId := s.pevRunId) == s
      && |r.out| == 2
      && r.out[0] == Spi(SetBufferSize(SlacParamCnfLength + Overhead))
      && var sent := UnwrapBurst(r.out[1].op.bytes);
         && sent.Some? && |sent.value| == SlacParamCnfLength
         && MacAt(sent.value, 0) == s.rx[6..12] && MacAt(sent.value, 28) == s.rx[6..12]
         && RunIdAt(sent.value, 36) == s.rx[21..29]
         && MessageType(sent.value) == 0x6065
  {
  }

  /** CM_START_ATTEN_CHAR.IND in SLAC_PARAM_CNF starts sounding: timer set
      to `now`, counter zero, and the first 29 accumulators cleared (the
      others keep their value). */
  lemma StartAttenCharStartsSounding(c: Codes, s: Session, now: nat)
    requires c.Distinct()
    requires MessageType(s.rx) == c.StartAttenCharInd() && s.state == SlacParamCnf
    ensures var r := SlacManager(c, s, now);
      && r.out == []
      && r.session.state == MnbcSound && r.session.soundsTimer == now
      && r.session.receivedSounds == 0
      && (forall x | 0 <= x < ClearedGroups :: r.session.avgAcVar[x] == 0)
      && r.session.avgAcVar[ClearedGroups..] == s.avgAcVar[ClearedGroups..]
  {
  }

  /** In MNBC_SOUND, CM_MNBC_SOUND.IND counts one sound and
      CM_ATTEN_PROFILE.IND folds the samples at bytes 27..84 into the
      accumulators; neither changes anything else. */
  lemma SoundingMessages(c: Codes, s: Session, now: nat)
    requires c.Distinct() && s.state == MnbcSound
    ensures MessageType(s.rx) == c.MnbcSoundInd() ==>
      SlacManager(c, s, now) == Reaction(s.(receivedSounds := (s.receivedSounds + 1) % 0x100), [])
    ensures MessageType(s.rx) == c.AttenProfileInd() ==>
      SlacManager(c, s, now)
        == Reaction(s.(avgAcVar := AttenProfile(s.avgAcVar, s.receivedSounds, s.rx[27..85])), [])
  {
  }

  /** The first verification gate: CM_ATTEN_CHAR.RSP in ATTEN_CHAR_IND
      reaches ATTEN_CHAR_RSP exactly when bytes 21..26 hold the vehicle's
      MAC, bytes 27..34 the RunId and byte 69 is zero; otherwise the session
      falls back to MODEM_CONFIGURED. */
  lemma AttenCharRspGate(c: Codes, s: Session, now: nat)
    requires c.Distinct()
    requires MessageType(s.rx) == c.AttenCharRspType() && s.state == AttenCharInd
    ensures var r := SlacManager(c, s, now);
      && r.out == []
      && (r.session.state == AttenCharRsp <==>
            s.rx[21..27] == s.pevMac && s.rx[27..35] == s.pevRunId && s.rx[69] == 0)
      && (r.session.state != AttenCharRsp ==> r.session.state == ModemConfigured)
      && r.session.(state := s.state) == s
  {
  }

  /** The second verification gate: CM_SLAC_MATCH.REQ in ATTEN_CHAR_RSP is
      answered with a 109-byte CM_SLAC_MATCH.CNF carrying the NID and NMK,
      and moves to MODEM_GET_SW_REQ, exactly when bytes 40..45 hold the
      vehicle's MAC, bytes 69..76 the RunId and byte 21 is 0x3E; otherwise
      nothing happens. */
  lemma SlacMatchGate(c: Codes, s: Session, now: nat)
    requires c.Distinct()
    requires MessageType(s.rx) == c.SlacMatchReq() && s.state == AttenCharRsp
    ensures var r := SlacManager(c, s, now);
      var ok := s.rx[40..46] == s.pevMac && s.rx[69..77] == s.pevRunId && s.rx[21] == 0x3E;
      && (r.session.state == ModemGetSwReq <==> ok)
      && (!ok ==> r == Reaction(s, []))
      && (ok ==>
            && r.session == s.(state := ModemGetSwReq)
            && |r.out| == 2
            && var sent := UnwrapBurst(r.out[1].op.bytes);
               && sent.Some? && |sent.value| == SlacMatchCnfLength
               && MacAt(sent.value, 40) == s.pevMac && RunIdAt(sent.value, 69) == s.pevRunId
               && sent.value[85..92] == DefaultNid && sent.value[93..109] == s.nmk)
  {
  }

  /** CM_GET_SW.CNF in MODEM_WAIT_SW counts the reply and keeps the sender's
      MAC as the vehicle modem's only when it is not our own modem's. */
  lemma GetSwCnfCounts(c: Codes, s: Session, now: nat)
    requires c.Distinct()
    requires MessageType(s.rx) == c.GetSwCnf() && s.state == ModemWaitSw
    ensures var r := SlacManager(c, s, now);
      && r.out == [] && r.session.state == ModemWaitSw
      && r.session.modemsFound == (s.modemsFound + 1) % 0x100
      && (s.rx[6..12] != s.myModemMac ==> r.session.pevModemMac == s.rx[6..12])
      && (s.rx[6..12] == s.myModemMac ==> r.session.pevModemMac == s.pevModemMac)
  {
  }

  /** Every reply is counted, not every modem: two replies from our own
      modem make two "modems found" while no vehicle modem was seen. */
  lemma RepliesNotModemsAreCounted(c: Codes, s: Session, now: nat)
    requires c.Distinct()
    requires MessageType(s.rx) == c.GetSwCnf() && s.state == ModemWaitSw
    requires s.modemsFound == 0 && s.rx[6..12] == s.myModemMac
    ensures var once := SlacManager(c, s, now).session;
      var twice := SlacManager(c, once, now).session;
      twice.modemsFound == 2 && twice.pevModemMac == s.pevModemMac
  {
    var once := SlacManager(c, s, now).session;
    GetSwCnfCounts(c, s, now);
    assert once.rx == s.rx && once.state == ModemWaitSw && once.myModemMac == s.myModemMac;
    GetSwCnfCounts(c, once, now);
  }
}

=== FILE: sounding.dfy ===
/** Attenuation averaging during sounding (src/main.cpp:416-434).

    The vehicle sends its sounds and the modem reports one attenuation
    profile per sound, so in the usual order every CM_MNBC_SOUND.IND is
    followed by its CM_ATTEN_PROFILE.IND. The lemmas follow ten such rounds
    from the reset made at CM_START_ATTEN_CHAR.IND. */
module Sounding {
  import opened Bytes
  import opened Codec
  import opened Slac

  /** The 58 samples of one attenuation profile. */
  type Profile = p: seq<Byte> | |p| == 58 witness seq(58, _ => 0)

  /** The sounding part of the session: `AvgACVar` and `ReceivedSounds`. */
  datatype Acc = Acc(avg: AcVar, received: Byte)

  /** One CM_MNBC_SOUND.IND followed by one CM_ATTEN_PROFILE.IND. */
  function Round(a: Acc, p: Profile): Acc
  {
    var n := Low8(a.received + 1);
    Acc(AttenProfile(a.avg, n, p), n)
  }

  /** The rounds for the profiles in `ps`, in order. */
  function Rounds(a: Acc, ps: seq<Profile>): Acc
    decreases |ps|
  {
    if |ps| == 0 then a else Round(Rounds(a, ps[..|ps| - 1]), ps[|ps| - 1])
  }

  /** The sum of group `x` over the profiles. */
  function ColumnSum(ps: seq<Profile>, x: nat): nat
    requires x < Groups
    decreases |ps|
  {
    if |ps| == 0 then 0 else ColumnSum(ps[..|ps| - 1], x) + ps[|ps| - 1][x]
  }

  lemma {:induction false} ColumnSumBound(ps: seq<Profile>, x: nat)
    requires x < Groups
    ensures ColumnSum(ps, x) <= 255 * |ps|
  {
    if |ps| > 0 {
      ColumnSumBound(ps[..|ps| - 1], x);
    }
  }

  /** Before the tenth sound no averaging happens: each accumulator holds its
      starting value plus the samples so far, modulo 2^16. */
  lemma {:induction false} PartialSums(init: AcVar, ps: seq<Profile>)
    requires |ps| < SoundCount
    ensures Rounds(Acc(init, 0), ps).received == |ps|
    ensures forall x | 0 <= x < Groups ::
      Rounds(Acc(init, 0), ps).avg[x] == (init[x] + ColumnSum(ps, x)) % 0x1_0000
  {
    if |ps| > 0 {
      var front := ps[..|ps| - 1];
      PartialSums(init, front);
      var a := Rounds(Acc(init, 0), front);
      var p := ps[|ps| - 1];
      assert a.received + 1 < SoundCount;
      assert Rounds(Acc(init, 0), ps) == Round(a, p);
      assert Round(a, p).avg == Accumulate(a.avg, p);
      forall x | 0 <= x < Groups
        ensures Rounds(Acc(init, 0), ps).avg[x] == (init[x] + ColumnSum(ps, x)) % 0x1_0000
      {
        calc {
          Rounds(Acc(init, 0), ps).avg[x];
          (a.avg[x] + p[x]) % 0x1_0000;
          ((init[x] + ColumnSum(front, x)) % 0x1_0000 + p[x]) % 0x1_0000;
          { ModAddLeft(init[x] + ColumnSum(front, x), p[x]); }
          (init[x] + ColumnSum(front, x) + p[x]) % 0x1_0000;
        }
      }
    }
  }

  lemma ModAddLeft(a: nat, b: nat)
    ensures (a % 0x1_0000 + b) % 0x1_0000 == (a + b) % 0x1_0000
  {
  }

  /** At the tenth sound the profile is added and every accumulator is
      replaced by its tenth (truncating). */
  lemma TenRounds(init: AcVar, ps: seq<Profile>)
    requires |ps| == SoundCount
    ensures Rounds(Acc(init, 0), ps).received == SoundCount
    ensures forall x | 0 <= x < Groups ::
      Rounds(Acc(init, 0), ps).avg[x] == ((init[x] + ColumnSum(ps, x)) % 0x1_0000) / SoundCount
  {
    var front := ps[..|ps| - 1];
    PartialSums(init, front);
    var a := Rounds(Acc(init, 0), front);
    var p := ps[|ps| - 1];
    forall x | 0 <= x < Groups
      ensures Rounds(Acc(init, 0), ps).avg[x] == ((init[x] + ColumnSum(ps, x)) % 0x1_0000) / SoundCount
    {
      ModAddLeft(init[x] + ColumnSum(front, x), p[x]);
    }
  }

  /** Started from zero, ten rounds give each group the truncated mean of
      its ten samples; the sums stay within 2550, far from the `uint16_t`
      limit. */
  lemma MeanOfTenProfiles(ps: seq<Profile>)
    requires |ps| == SoundCount
    ensures forall x | 0 <= x < Groups :: ColumnSum(ps, x) <= 2550
    ensures forall x | 0 <= x < Groups ::
      Rounds(Acc(seq(Groups, _ => 0), 0), ps).avg[x] == ColumnSum(ps, x) / SoundCount
  {
    var init: AcVar := seq(Groups, _ => 0);
    TenRounds(init, ps);
    var r := Rounds(Acc(init, 0), ps);
    forall x | 0 <= x < Groups
      ensures ColumnSum(ps, x) <= 2550
      ensures r.avg[x] == ColumnSum(ps, x) / SoundCount
    {
      ColumnSumBound(ps, x);
      assert r.avg[x] == ((init[x] + ColumnSum(ps, x)) % 0x1_0000) / SoundCount;
      assert init[x] == 0;
    }
  }

  /** After CM_START_ATTEN_CHAR.IND the lower 29 groups are averaged
      correctly whatever the previous session left behind; the upper 29 start
      from their old value, so they average correctly only if that was zero
      (as after boot). */
  lemma SoundingAfterReset(old_avg: AcVar, ps: seq<Profile>)
    requires |ps| == SoundCount
    ensures var r := Rounds(Acc(ClearAverages(old_avg), 0), ps);
      && (forall x | 0 <= x < ClearedGroups :: r.avg[x] == ColumnSum(ps, x) / SoundCount)
      && (forall x | ClearedGroups <= x < Groups ::
            r.avg[x] == ((old_avg[x] + ColumnSum(ps, x)) % 0x1_0000) / SoundCount)
  {
    var init := ClearAverages(old_avg);
    TenRounds(init, ps);
    var r := Rounds(Acc(init, 0), ps);
    forall x | 0 <= x < Groups
      ensures x < ClearedGroups ==> r.avg[x] == ColumnSum(ps, x) / SoundCount
      ensures ClearedGroups <= x ==>
        r.avg[x] == ((old_avg[x] + ColumnSum(ps, x)) % 0x1_0000) / SoundCount
    {
      ColumnSumBound(ps, x);
      assert r.avg[x] == ((init[x] + ColumnSum(ps, x)) % 0x1_0000) / SoundCount;
      if ClearedGroups <= x {
        assert init[x] == init[ClearedGroups..][x - ClearedGroups] == old_avg[x];
      } else {
        assert init[x] == 0;
      }
    }
  }

  /** The consequence of clearing only 29 of the 58 accumulators: a value
      of 1000 left in group 57 by an earlier session becomes 100 after ten
      rounds in which every sample was zero, and the next CM_ATTEN_CHAR.IND
      reports it (byte 128, the last group). */
  lemma StaleGroupReported(old_avg: AcVar, myMac: Mac, pevMac: Mac, runId: RunId)
    requires old_avg[57] == 1000
    ensures var silent := seq(SoundCount, _ => seq(58, _ => 0));
      var a := Rounds(Acc(ClearAverages(old_avg), 0), silent);
      && a.avg[57] == 100
      && ComposeAttenCharInd(myMac, pevMac, runId, a.received, a.avg)[71 + 57] == 100
  {
    var silent: seq<Profile> := seq(SoundCount, _ => seq(58, _ => 0));
    SoundingAfterReset(old_avg, silent);
    ZeroColumn(silent, 57);
  }

  lemma {:induction false} ZeroColumn(ps: seq<Profile>, x: nat)
    requires x < Groups
    requires forall k | 0 <= k < |ps| :: ps[k][x] == 0
    ensures ColumnSum(ps, x) == 0
  {
    if |ps| > 0 {
      ZeroColumn(ps[..|ps| - 1], x);
    }
  }

  /** `Round` is what `SlacManager` does in MNBC_SOUND with one
      CM_MNBC_SOUND.IND followed by one CM_ATTEN_PROFILE.IND, whose samples
      are bytes 27..84; the state stays MNBC_SOUND. */
  lemma RoundIsHandled(c: Codes, s: Session, sound: RxBuffer, profile: RxBuffer, now: nat)
    requires c.Distinct() && s.state == MnbcSound
    requires MessageType(sound) == c.MnbcSoundInd() && MessageType(profile) == c.AttenProfileInd()
    ensures var t := SlacManager(c, s.(rx := sound), now).session;
      var u := SlacManager(c, t.(rx := profile), now).session;
      && u.state == MnbcSound
      && Acc(u.avgAcVar, u.receivedSounds) == Round(Acc(s.avgAcVar, s.receivedSounds), profile[27..85])
  {
  }

  /** The average is not taken once: every further profile that arrives
      while the counter stands at ten is added to the average and the sum
      divided by ten again. */
  lemma AveragingRepeats(a: Acc, p: Profile)
    requires a.received == SoundCount
    requires forall x | 0 <= x < Groups :: a.avg[x] < 0x100
    ensures forall x | 0 <= x < Groups ::
      AttenProfile(a.avg, a.received, p)[x] == (a.avg[x] + p[x]) / SoundCount
  {
    forall x | 0 <= x < Groups
      ensures AttenProfile(a.avg, a.received, p)[x] == (a.avg[x] + p[x]) / SoundCount
    {
    }
  }
}

=== FILE: transport.dfy ===
/** SPI transport to the QCA700X modem: register-level effects and the
    external-buffer burst framing (src/main.cpp, `qcaspi_write_burst` and
    `qcaspi_read_burst`).

    Pin toggling and the individual `SPI.transfer*` calls are not modelled;
    what remains is what the modem observes: the value written to the
    transfer-size register and the bytes clocked in or out. */
module Transport {
  import opened Bytes

  /** One effect on the modem. */
  datatype SpiOp =
    | SetBufferSize(size: U16)          // write of SPI_REG_BFR_SIZE
    | WriteExternal(bytes: seq<Byte>)   // external write: header, data, footer
    | ReadExternal(count: nat)          // external read of `count` bytes
    | ResetModem                        // set SPI_INT_CPU_ON in SPI_REG_SPI_CONFIG

  /** Magic start of a burst and its trailer. */
  const Preamble: seq<Byte> := [0xAA, 0xAA, 0xAA, 0xAA]
  const Footer: seq<Byte> := [0x55, 0x55]

  /** Number of framing bytes `qcaspi_write_burst` adds around a payload. */
  const Overhead: nat := 10

  /** The 8-byte burst header: preamble, little-endian length, two zeros.
      Only the low 16 bits of the 32-bit length are sent. */
  function BurstHeader(len: nat): (h: seq<Byte>)
    ensures |h| == 8
  {
    Preamble + [len % 0x100, (len / 0x100) % 0x100, 0, 0]
  }

  /** The bytes of one external write burst. */
  function Wire(payload: seq<Byte>): seq<Byte>
  {
    BurstHeader(|payload|) + payload + Footer
  }

  /** The length a burst header announces (bytes 4 and 5, little-endian). */
  function DeclaredLength(header: seq<Byte>): (n: U16)
    requires |header| >= 6
  {
    header[4] as int + header[5] as int * 0x100
  }

  /** `qcaspi_write_burst(src, len)`: program the size register with
      `len + 10` truncated to `uint16_t`, then send header, data and footer. */
  function WriteBurst(payload: seq<Byte>): (ops: seq<SpiOp>)
    requires |payload| < 0x1_0000_0000
    ensures |ops| == 2 && ops[1].WriteExternal?
    ensures ops[0] == SetBufferSize((|payload| + Overhead) % 0x1_0000)
    ensures |ops[1].bytes| == |payload| + Overhead
    ensures ops[1].bytes[..4] == Preamble
    ensures DeclaredLength(ops[1].bytes) == |payload| % 0x1_0000
    ensures ops[1].bytes[6] == 0 && ops[1].bytes[7] == 0
    ensures ops[1].bytes[8..8 + |payload|] == payload
    ensures ops[1].bytes[8 + |payload|..] == Footer
  {
    var total := Low16(|payload| + Overhead);
    [SetBufferSize(total), WriteExternal(Wire(payload))]
  }

  /** The inverse of the write framing: accepts exactly the well-formed bursts
      (preamble, reserved zeros, footer, and an announced length equal to the
      data length) and returns their data. */
  function UnwrapBurst(bytes: seq<Byte>): (r: Option<seq<Byte>>)
    ensures r.Some? ==> |r.value| + Overhead == |bytes|
  {
    if |bytes| < Overhead then None
    else
      var n := |bytes| - Overhead;
      if bytes[..4] == Preamble && DeclaredLength(bytes) == n
         && bytes[6] == 0 && bytes[7] == 0 && bytes[8 + n..] == Footer
      then Some(bytes[8..8 + n])
      else None
  }

  /** Framing round trip: a burst written for any payload that fits the 16-bit
      length field unwraps to that payload, and every burst that unwraps is
      the framing of what it unwraps to. */
  lemma UnwrapWire(payload: seq<Byte>, bytes: seq<Byte>)
    requires |payload| < 0x1_0000
    ensures UnwrapBurst(Wire(payload)) == Some(payload)
    ensures UnwrapBurst(bytes).Some? ==> Wire(UnwrapBurst(bytes).value) == bytes
  {
    var w := Wire(payload);
    assert w[..4] == Preamble;
    assert w[8 + |payload|..] == Footer;
    assert w[8..8 + |payload|] == payload;
    if UnwrapBurst(bytes).Some? {
      var n := |bytes| - Overhead;
      var p := bytes[8..8 + n];
      assert bytes[4] == n % 0x100 && bytes[5] == (n / 0x100) % 0x100;
      assert bytes == bytes[..4] + bytes[4..8] + p + bytes[8 + n..];
    }
  }

  /** A payload of 2^16 bytes or more cannot be recovered: the 16-bit length
      field has wrapped. */
  lemma LongPayloadIsLost(payload: seq<Byte>)
    requires 0x1_0000 <= |payload| < 0x1_0000_0000
    ensures UnwrapBurst(Wire(payload)) == None
  {
    var w := Wire(payload);
    assert DeclaredLength(w) == |payload| % 0x1_0000;
  }

  /** Outcome of `qcaspi_read_burst(dst)`: the returned byte count, the SPI
      effects, and the receive buffer afterwards. */
  datatype ReadResult = ReadResult(count: nat, ops: seq<SpiOp>, dst: seq<Byte>)

  /** `qcaspi_read_burst`: `available` is the value read from
      SPI_REG_RDBUF_BYTE_AVA and `clocked` the bytes the modem shifts out
      during an external read. */
  function ReadBurst(available: U16, capacity: nat, clocked: seq<Byte>, dst: seq<Byte>): (r: ReadResult)
    requires capacity <= |dst|
    requires 0 < available <= capacity ==> available <= |clocked|
    ensures r.count == (if 0 < available <= capacity then available else 0)
    ensures |r.dst| == |dst|
    ensures r.count == 0 ==> r.ops == [] && r.dst == dst
    ensures r.count > 0 ==>
      && r.ops == [SetBufferSize(available), ReadExternal(available)]
      && r.dst[..r.count] == clocked[..r.count]
      && r.dst[r.count..] == dst[r.count..]
  {
    if available != 0 && available <= capacity then
      ReadResult(available, [SetBufferSize(available), ReadExternal(available)],
                 clocked[..available] + dst[available..])
    else
      ReadResult(0, [], dst)
  }
}
